=== FILE: README.md ===
# romflash core, modelled in Dafny

romflash flashes a ROM archive onto an Android phone by driving two external
tools, `adb` (while Android runs) and `fastboot` (while the phone is in its
bootloader). This project models the core of that program:

- `romflash/Device.py`: the boot-mode enumeration, the `adb`/`fastboot`
  command prefixing, the availability, unlock and boot-mode queries, and
  `flash_file`.
- `romflash/FileHandler.py`: the default working and extraction directories,
  clearing and recreating the working directory, unpacking the archive, and
  the logged existence check.
- `romflash/modes/Flash.py`: the flashing base class. This covers its own mode
  classifier and unlock check, `verifyFilePaths` and `ynprompt`. It also covers
  the `flash` command and the preparation every full flash starts with.
- `romflash/modes/SoftFlash.py`: the working directory next to the archive,
  and the full flashing sequence. The sequence reboots to the bootloader,
  optionally wipes, runs `fastboot update`, checks the mode again, flashes
  product, system and vendor, and optionally reboots to system.

Modelling conventions:

- **The tools** are an oracle `Responder`. It maps a full command line to the
  text the tool prints on stdout and stderr.
- **Queries** return a `Probe`: the answer together with the command lines
  sent, in order. This makes "fastboot is not asked once adb answered"
  statable.
- **The filesystem** is a map from `Path` to `File` or `Directory`. The
  operations on it are `rmtree`, `mkdir` without `parents` and `extractall`.
- **Python exceptions** are the `Errors.Error` values, carried in `Result`.
  Paths follow the `pathlib` operations the code uses: parsing, printing,
  `name`, `stem`, `suffix`, `with_suffix("")` and `/`, with the exceptions
  listed under "Left out".
- **The sequence** `SoftFlash.FlashFull` is a pure function of a `Script`.
  The script holds the two detected modes, the operator's two replies and an
  oracle saying which shell commands succeed. A failing command raises,
  because the code runs commands with `check=True`.
- **Plans.** `SoftFlash.Planned` writes out the commands of a run that goes all
  the way through. The lemmas relate every run to that plan.
- **Python's `x in s`** on strings is `Text.Contains`.
- **`marker in (stdout, stderr)`** on a tuple is `Device.InEitherStream`, a
  whole-stream equality.

Behaviour worth knowing about (the code as written):

- The result of the existence checks in `flashFull` is ignored. A missing
  working directory does not stop the run (`Flash.MissingWorkingDirectoryTolerated`).
- Every command runs with `check=True`, so a failing image command raises and
  the remaining images are not flashed (`SoftFlash.SystemFailureSkipsVendor`).
  Per-image failures are not collected.
- A mode other than fastboot after the update stops the run only when the run
  is interactive and the operator declines. A non-interactive run carries on
  (`SoftFlash.NonInteractiveNeverPrompts`).

## Model

| member | source | states |
|---|---|---|
| Text.ContainsAt | romflash/Device.py:39 | Python's `sub in s` holds exactly when `sub` starts at some position of `s` |
| Text.StripLowerIsY | romflash/modes/Flash.py:156-157 | `reply.strip().lower() == "y"` holds exactly when the reply is one 'y' or 'Y' with only white space around it |
| Paths.ParseStr | romflash/modes/Flash.py:137 | `Path(str(p)) == p` for every normalised path |
| Paths.ParseNormalizes | romflash/modes/Flash.py:137 | parsing is idempotent: printing a parsed path and parsing again gives the same path |
| Paths.StemOfDotted | romflash/Device.py:75 | the stem of "base.ext" is "base" and its suffix ".ext", for dot-free parts |
| Paths.Div | romflash/modes/Flash.py:17 | `a / b`: an absolute right operand replaces the left one; `.` on either side leaves the other; otherwise the printed result is the two printed paths joined by '/' |
| Paths.WithoutSuffix | romflash/FileHandler.py:23 | `with_suffix("")` fails exactly for a path without a name; otherwise it keeps the parent and cuts the last suffix off the name |
| Disk.RemoveTree | romflash/FileHandler.py:53 | `rmtree` succeeds exactly on a directory; it removes that directory and everything below it, and nothing else |
| Disk.MakeDir | romflash/FileHandler.py:56 | `mkdir` succeeds exactly when the path is absent and its parent is a directory; it adds only that directory |
| Disk.ExtractArchive | romflash/FileHandler.py:77-79 | `extractall` needs the archive to be a file and no ancestor of the target to be a file; it creates the target and keeps every existing entry; every path it creates is a directory, and afterwards the target and all its ancestors are directories |
| Disk.CheckPaths | romflash/FileHandler.py:59-74 | the answer is whether every path exists; every path is checked and recorded in order, also after a missing one |
| Device.FromValue | romflash/Device.py:9-13 | `DeviceMode(v)` exists exactly for -1..2 and inverts the value map, so the four values are distinct |
| Device.InvokeRoundTrip | romflash/Device.py:81-87 | the shell line is the tool name, one space and the arguments; tool and arguments are recovered from it |
| Device.IsAdbAvailable | romflash/Device.py:37-42 | true exactly when "device" occurs in the stdout of `adb devices`, which is the only command sent |
| Device.IsFastbootAvailable | romflash/Device.py:44-49 | true exactly when "device" occurs in the stdout of `fastboot devices`, which is the only command sent |
| Device.IsUnlocked | romflash/Device.py:25-35 | `None` exactly when fastboot lists no device; true exactly when additionally one whole stream of `getvar securestate` equals the marker; `getvar` is sent only after a device was listed |
| Device.UnlockUsesOnlyIssued | romflash/Device.py:25-35 | two tools that answer the issued commands alike give the same unlock result |
| Device.GetBootMode | romflash/Device.py:51-62 | SYSTEM iff adb lists a device; UNKNOWN iff neither tool does; FASTBOOT iff only fastboot does and a whole stream equals "is-userspace: yes"; the later tools are asked only when the earlier ones did not decide |
| Device.BootModeUsesOnlyIssued | romflash/Device.py:51-62 | the classification depends only on the answers to the commands it issued |
| Device.FlashFile | romflash/Device.py:64-79 | one command, `fastboot flash <partition> <image>`; the partition is `android` when non-empty, else the image's stem; the result is that command's output |
| Device.FlashFileIgnoresImgDir | romflash/Device.py:76-79 | the image directory has no effect on what `flash_file` does |
| Device.UnlockedReplyWithNewlineMissed | romflash/Device.py:30-32 | as written, an unlocked reply ending in a newline reads as locked; the corrected check reads it as unlocked |
| Device.IsUnlockedIntended | romflash/Device.py:30-32 | the corrected unlock check is indeterminate exactly when fastboot lists no device, and says unlocked exactly when the marker occurs inside stdout or stderr; it sends `fastboot devices`, then `fastboot getvar securestate` only when a device is listed |
| Device.IntendedUnlockFindsMarker | romflash/Device.py:30-32 | the corrected check finds the marker at any position of stdout |
| Device.IntendedUnlockExtendsWritten | romflash/Device.py:30-32 | the corrected check accepts everything the written one accepts, is indeterminate in the same cases, and sends the same commands |
| Device.UserspaceReplyWithNewlineMissed | romflash/Device.py:56-59 | as written, a userspace reply ending in a newline classifies as BOOTLOADER; the corrected classifier says FASTBOOT |
| Device.GetBootModeIntended | romflash/Device.py:56-59 | the corrected classifier says SYSTEM exactly when adb lists a device, UNKNOWN exactly when neither tool lists one, and FASTBOOT exactly when only fastboot does and the userspace marker occurs inside stdout or stderr; it issues the same queries as the written one |
| Device.IntendedBootModeExtendsWritten | romflash/Device.py:56-59 | the corrected classifier keeps every FASTBOOT verdict, calls BOOTLOADER only what the written one calls BOOTLOADER, and agrees with it in both directions on SYSTEM and UNKNOWN |
| FileHandler.New | romflash/FileHandler.py:8-33 | the working directory defaults to the archive without its suffix and the extraction directory to `working_directory / "rom"`; explicit arguments win; a missing archive raises `FileNotFoundError`; a nameless archive without a working directory raises `ValueError` |
| FileHandler.DefaultLayoutExample | romflash/FileHandler.py:22-30 | /roms/device.zip is unpacked under /roms/device/rom by default |
| FileHandler.VerifyPaths | romflash/FileHandler.py:59-74 | whether every path exists; each is logged when a logger is given, and the logger does not change the answer |
| FileHandler.PrepareWorkingDirectory | romflash/FileHandler.py:48-57 | succeeds exactly when the working directory and its parent are directories; afterwards it exists and is empty, and nothing outside it changed |
| FileHandler.ExtractRom | romflash/FileHandler.py:36-46 | succeeds exactly when the archive is a file and no ancestor of the target is a file; the target then exists, nothing existing is lost, every path created is a directory, and the target's whole ancestry is directories |
| FileHandler.PrepareThenExtract | romflash/FileHandler.py:36-57 | preparing and then extracting leaves exactly the working directory and the extraction directory below the working directory |
| FileHandler.ExtractThenPrepareLosesRom | romflash/FileHandler.py:48-57 | clearing the working directory after extracting removes the extraction again |
| Flash.New | romflash/modes/Flash.py:13-17 | fails exactly for a nameless archive; the extraction directory is `working_directory / rom_zip.with_suffix("")`, which for an absolute archive lies next to the archive |
| Flash.IsAdbAvailable | romflash/modes/Flash.py:48-52 | true exactly when "device" occurs in the stdout of `adb devices` |
| Flash.IsFastBootAvailable | romflash/modes/Flash.py:54-58 | true exactly when "device" occurs in the stdout of `fastboot devices` |
| Flash.AvailabilityMatchesDevice | romflash/modes/Flash.py:48-58 | both availability checks agree with their twins in romflash/Device.py |
| Flash.IsBootloaderUnlocked | romflash/modes/Flash.py:35-46 | `None` exactly when fastboot lists no device; true exactly when the marker occurs anywhere in the `getvar securestate` stdout |
| Flash.UnlockVariantsAgree | romflash/modes/Flash.py:35-46 | the two unlock checks are indeterminate in the same cases and agree when stdout is exactly the marker |
| Flash.GetDeviceMode | romflash/modes/Flash.py:60-74 | SYSTEM iff adb lists a device; UNKNOWN iff neither tool does; FASTBOOT iff only fastboot does and stdout contains "is-userspace: yes"; queries in order |
| Flash.ModeVariantsAgree | romflash/modes/Flash.py:61-74 | the two classifiers always agree on SYSTEM and UNKNOWN, and fully when both read the userspace reply the same way |
| Flash.ModeVariantsDifferOnStderr | romflash/modes/Flash.py:65-71 | a userspace marker on stderr only is FASTBOOT for romflash/Device.py but BOOTLOADER here |
| Flash.VerifyFilePaths | romflash/modes/Flash.py:19-33 | whether every path exists; every path is logged with its state |
| Flash.YnPrompt | romflash/modes/Flash.py:145-157 | skipped: the default without a question; otherwise the question plus the default's suffix is shown and the answer is yes exactly for a lone 'y'/'Y' |
| Flash.PromptIgnoresDefault | romflash/modes/Flash.py:145-157 | an interactive answer never depends on the default: an empty reply is no even with default yes |
| Flash.FlashCommand | romflash/modes/Flash.py:127-143 | raises `ValueError` exactly when no partition is given and the image has no name; an explicit partition is used as given; otherwise the partition is the image path without its suffix |
| Flash.FlashMatchesFlashFileOnBareNames | romflash/modes/Flash.py:137-143 | for a bare image name, `flash` and `flash_file` build the same command |
| Flash.CreateWorkingDir | romflash/modes/Flash.py:89-99 | a file in the way raises `FileExistsError`; success exactly when the parent is a directory; afterwards the directory exists, and nothing outside it changes |
| Flash.ExtractZip | romflash/modes/Flash.py:101-108 | a missing archive raises; extraction succeeds exactly when the archive is a file and no prefix of the extraction directory is a file; on success the extraction directory exists, nothing existing is lost, every path created is a directory, and the extraction directory's whole ancestry is directories |
| Flash.PrepareSession | romflash/modes/Flash.py:76-108 | a file in place of the working directory or a missing archive stops the run; preparation succeeds exactly when the working directory's parent is a directory, the archive is a file that clearing does not remove, and every file on the way to the extraction directory is cleared away with the old working directory; on success both directories exist, nothing outside the working directory changes, the only new paths lead to the extraction directory and are all directories, the extraction directory's whole ancestry is directories, and an old working directory keeps nothing but that path |
| Flash.ExistingWorkingDirectoryCleared | romflash/modes/Flash.py:89-99 | an existing working directory is cleared rather than refused: preparation succeeds, and afterwards only the path down to the extraction directory is below it |
| Flash.MissingWorkingDirectoryTolerated | romflash/modes/Flash.py:82-87 | a working directory that does not exist yet is created, and the preparation succeeds |
| SoftFlash.New | romflash/modes/SoftFlash.py:9-10 | fails exactly for a nameless archive; the working directory is the archive without its suffix; the extraction directory is that directory for an absolute archive and the directory doubled for a relative one |
| SoftFlash.ExampleLayout | romflash/modes/SoftFlash.py:9-10 | /roms/device.zip is unpacked into /roms/device itself |
| SoftFlash.IssueAll | romflash/modes/Flash.py:112-125 | commands run in order until one fails; the failing one is the last issued and its failure is raised; none fails iff all succeed |
| SoftFlash.RebootToBootloader | romflash/modes/SoftFlash.py:15-26 | no step for UNKNOWN (exit); nothing for BOOTLOADER; `adb reboot bootloader` for SYSTEM and `fastboot reboot bootloader` for FASTBOOT |
| SoftFlash.FlashImages | romflash/modes/SoftFlash.py:44-47 | each issued command is the flash command of the image at its position; when nothing failed, all images were issued and all succeeded |
| SoftFlash.FlashImagesStops | romflash/modes/SoftFlash.py:44-47 | an image stretch ends early only because `flash` raised for the next image or the last command failed, and all before succeeded |
| SoftFlash.FinalImagesCommands | romflash/modes/SoftFlash.py:44-47 | flashing product, system and vendor issues exactly the three `fastboot flash <name> <name>.img` commands |
| SoftFlash.ImageCommandOf | romflash/modes/SoftFlash.py:45-47 | `flash("<base>.img")` is `fastboot flash <base> <base>.img` |
| SoftFlash.ContinuePrompt | romflash/modes/SoftFlash.py:36-42 | the question is shown only in an interactive run whose device is not in fastboot; the run goes on iff fastboot, non-interactive or yes |
| SoftFlash.RebootPrompt | romflash/modes/SoftFlash.py:49-54 | the question is shown only in an interactive run; reboot iff interactive and yes |
| SoftFlash.FlashFull | romflash/modes/SoftFlash.py:12-26 | a failed preparation raises before any device command or question; an unknown first mode exits with 1 before any device command (the full relation to the plan is in FlashFullRuns and FlashFullFollowsPlan) |
| SoftFlash.FlashFullRuns | romflash/modes/SoftFlash.py:12-54 | `flashFull` is the preparation followed by the device sequence with the three image commands |
| SoftFlash.PreparationFailureRaises | romflash/modes/SoftFlash.py:12-13 | a failing preparation raises before any device command or question |
| SoftFlash.FinishFollowsPlan | romflash/modes/SoftFlash.py:36-54 | after the update the run issues a prefix of images-then-reboot; it completes iff it continues and all succeed; it exits with 1 and no command iff it does not continue |
| SoftFlash.FinishIssuedSucceed | romflash/modes/SoftFlash.py:36-54 | after the update every issued command but a failing last one succeeded |
| SoftFlash.RunFollowsPlan | romflash/modes/SoftFlash.py:12-54 | a run issues a prefix of the plan; it completes iff preparation succeeded, the mode is known, it continues and every planned command succeeds, and then it issued the whole plan |
| SoftFlash.FlashFullFollowsPlan | romflash/modes/SoftFlash.py:12-54 | the same for `flashFull` with its own preparation |
| SoftFlash.ExitConditions | romflash/modes/SoftFlash.py:17-42 | exit (always status 1) iff the first mode is unknown, or the start succeeded and the run does not continue; an unknown mode issues nothing |
| SoftFlash.FailureStops | romflash/modes/SoftFlash.py:12-54 | every issued command succeeded except a failing last one, whose failure is raised; nothing runs after it |
| SoftFlash.PlanWipe | romflash/modes/SoftFlash.py:28-33 | the wipe is planned iff formatting is asked for, right after the bootloader step and right before the update |
| SoftFlash.PlanReboot | romflash/modes/SoftFlash.py:49-54 | the reboot to system is planned iff accepted |
| SoftFlash.PlanUpdateOnce | romflash/modes/SoftFlash.py:32-34 | the update occurs exactly once in the plan |
| SoftFlash.PlanVendorAfterSystem | romflash/modes/SoftFlash.py:45-47 | in the plan, vendor comes only right after system |
| SoftFlash.SystemFailureSkipsVendor | romflash/modes/SoftFlash.py:45-47 | a failing system flash means vendor is never flashed |
| SoftFlash.CompletedLength | romflash/modes/SoftFlash.py:12-54 | a completed run issues between four and seven commands |
| SoftFlash.WipeIffFormat | romflash/modes/SoftFlash.py:28-33 | in a completed run the wipe is issued iff formatting was asked for, right before the update |
| SoftFlash.UpdateExactlyOnce | romflash/modes/SoftFlash.py:32-34 | a completed run issues the update, naming the archive as given, exactly once |
| SoftFlash.RebootIffAccepted | romflash/modes/SoftFlash.py:49-54 | in a completed run the reboot to system is issued iff the run is interactive and the operator accepts |
| SoftFlash.PromptsFollowPlan | romflash/modes/SoftFlash.py:35-54 | the questions shown are a prefix of "continue (only when not in fastboot), then reboot"; the continue question appears exactly when an interactive run got past the update with the device not in fastboot; the reboot question appears exactly when an interactive run went on and all three image commands succeeded |
| SoftFlash.NonInteractiveNeverPrompts | romflash/modes/SoftFlash.py:36-54 | a non-interactive run asks nothing, never reboots to system, and exits only for an unknown first mode |
| SoftFlash.EmptyContinueReplyExits | romflash/modes/SoftFlash.py:36-42 | after a successful start, an empty reply to the continue question exits with 1 before any image |
| SoftFlash.FastbootAfterUpdateAsksOnlyReboot | romflash/modes/SoftFlash.py:36-54 | with the device in fastboot after the update, only the reboot question is asked |

## Left out

- Process plumbing is not modelled: `subprocess`, the shell, logging and the
  exit of `Device._run_cmd` on a failed command. A tool's output is the oracle
  `Responder`, and a command's success is the script's `succeeds` oracle.
- `Flash.run` replaces every command with the placeholder text "Just example"
  before running it. The model issues the command it was given, which is what
  every caller means.
- `Flash.run` does not capture output, so the `.stdout` its callers read is
  `None` in the code. The model reads captured stdout, as in romflash/Device.py.
- `Flash.flash` passes a `working_directory` keyword that `run` does not accept.
  The image directory is modelled as having no effect on the command.
- Commands run with the working directory as their current directory. The
  model does not track a current directory, so a relative archive path in
  `fastboot update` is kept as text.
- Three decorator problems in romflash/modes/Flash.py are not modelled:
  - `@abstractmethod` on methods `SoftFlash` does not override, which would
    stop the class from being instantiated;
  - the `log_args` decorator;
  - the import of `log_args` from `romflash.__main__`, a module that defines
    no `log_args`, so the import itself fails.
- The mode queries `SoftFlash.flashFull` sends are not in the command list of
  a `Session`. The two modes come from the script, and the classifiers are
  modelled on their own.
- romflash/modes/device_mode is not part of this model. Its four constants are
  taken to be the `DeviceMode` values.
- RomFlasher, the MotoG8 flasher and the command-line entry points are not
  modelled.
- Archive contents and malformed archives (`BadZipFile`) are not modelled.
  Extraction creates the target directory and its ancestors only.
- Text.Lower: lowers ASCII letters only, because the one use compares against
  "y", and only 'Y' lowers to 'y'.
- Reading from a closed input (`EOFError` from `input`) is not modelled. A
  reply is always a string.
- Paths.Parse: a text starting with exactly two slashes ("//a") is read as an
  ordinary absolute path under "/". POSIX `pathlib` keeps "//" as a root of
  its own; the code only parses paths built from its own configuration.
- `SoftFlash.flashFull` defaults `interactive` and `format` to true. The model
  takes both as explicit parameters of `SoftFlash.FlashFull`, so a caller
  that omits them corresponds to passing true for both.
- Paths.Stem: a name whose only dot is its first character is its own stem.
  pathlib versions differ on names such as "..x".
- Flash.GetDeviceMode: every query in romflash/modes/Flash.py runs with
  `check=True`, so a query that exits non-zero raises `CalledProcessError`
  instead of being classified. The same holds for Flash.IsAdbAvailable,
  Flash.IsFastBootAvailable and Flash.IsBootloaderUnlocked. In
  `SoftFlash.flashFull` this can happen at either mode query. The model's
  classifiers always give a mode, and a `Script` always carries two modes, so
  a failing mode query is not modelled.
- Flash.CreateWorkingDir: states that the recreated directory is empty only
  when it already existed as a directory, because the filesystem map allows
  entries below a path that is not itself present.
- Flash.FlashCommand: for a command without an explicit partition, the
  contract states that the partition is some path equal to
  `with_suffix("")`, rather than spelling the command out.

## Findings

| source | as written | input that shows it | evidently intended | confidence | as-written member | corrected member |
|---|---|---|---|---|---|---|
| romflash/Device.py:30-32 | `marker in (stdout, stderr)` on a tuple compares each whole stream with the marker | a `getvar securestate` reply of "securestate: flashing_unlocked\n" is reported locked | search the marker inside stdout or stderr | not executed | Device.UnlockedReplyWithNewlineMissed | Device.IsUnlockedIntended |
| romflash/Device.py:56 | `"is-userspace: yes" in (stdout, stderr)` compares whole streams | a `getvar is-userspace` reply of "is-userspace: yes\n" classifies as BOOTLOADER | search the marker inside stdout or stderr | not executed | Device.UserspaceReplyWithNewlineMissed | Device.GetBootModeIntended |

=== FILE: device.dfy ===
/**
 * The device helper of romflash/Device.py: the boot-mode enumeration, the
 * `adb`/`fastboot` command prefixing, the availability, unlock and boot-mode
 * queries, and the flash command. The external tools are an oracle that maps
 * a command line to the text the tool prints on stdout and stderr.
 */
module Device {
  import opened Wrappers
  import opened Text
  import opened Paths

  /** The four boot states the classifier can report. */
  datatype DeviceMode = UNKNOWN | SYSTEM | BOOTLOADER | FASTBOOT

  /** The enumeration's integer value. */
  function Value(m: DeviceMode): int {
    match m
    case UNKNOWN => -1
    case SYSTEM => 0
    case BOOTLOADER => 1
    case FASTBOOT => 2
  }

  /** `DeviceMode(v)`: the member with value `v`, if any. It inverts `Value`, so the four values are distinct. */
  function FromValue(v: int): (r: Option<DeviceMode>)
    ensures r.Some? <==> -1 <= v <= 2
    ensures forall m :: Value(m) == v <==> r == Some(m)
  {
    if v == -1 then Some(UNKNOWN)
    else if v == 0 then Some(SYSTEM)
    else if v == 1 then Some(BOOTLOADER)
    else if v == 2 then Some(FASTBOOT)
    else None
  }

  /** What a tool printed: the captured standard output and standard error. */
  datatype ToolOutput = ToolOutput(stdout: string, stderr: string)

  /** The external tools: the output each full command line produces. */
  type Responder = string -> ToolOutput

  /** The two external programs the system drives. */
  datatype Tool = Adb | Fastboot

  function ToolName(t: Tool): string {
    match t
    case Adb => "adb"
    case Fastboot => "fastboot"
  }

  /** `Device.adb(cmd)` / `Device.fastboot(cmd)`: the command line handed to the shell. */
  function Invoke(t: Tool, cmd: string): string {
    ToolName(t) + " " + cmd
  }

  /** Recovers the tool and its arguments from a command line built by `Invoke`. */
  function ParseInvocation(line: string): Option<(Tool, string)> {
    if IsPrefix("adb ", line) then Some((Adb, line[4..]))
    else if IsPrefix("fastboot ", line) then Some((Fastboot, line[9..]))
    else None
  }

  /** The shell command is exactly the tool name, one space and the arguments, and nothing else. */
  lemma InvokeRoundTrip(t: Tool, cmd: string)
    ensures ParseInvocation(Invoke(t, cmd)) == Some((t, cmd))
    ensures |Invoke(t, cmd)| == |ToolName(t)| + 1 + |cmd|
  {
    var line := Invoke(t, cmd);
    if t == Adb {
      assert line[..4] == "adb ";
      assert line[4..] == cmd;
    } else {
      assert line[..9] == "fastboot ";
      assert line[9..] == cmd;
      assert line[..4] != "adb " by {
        assert line[0] == 'f';
      }
    }
  }

  /** The command lines of the queries the classifier and the unlock check send. */
  lemma QueryLines()
    ensures Invoke(Adb, "devices") == "adb devices"
    ensures Invoke(Fastboot, "devices") == "fastboot devices"
    ensures Invoke(Fastboot, "getvar securestate") == "fastboot getvar securestate"
    ensures Invoke(Fastboot, "getvar is-userspace") == "fastboot getvar is-userspace"
  {
  }

  /** A query's answer together with the command lines it sent, in order. */
  datatype Probe<T> = Probe(value: T, issued: seq<string>)

  /** Runs one tool command through the oracle. */
  function Query(run: Responder, t: Tool, cmd: string): Probe<ToolOutput> {
    Probe(run(Invoke(t, cmd)), [Invoke(t, cmd)])
  }

  const DeviceMarker := "device"
  const UnlockedMarker := "securestate: flashing_unlocked"
  const UserspaceMarker := "is-userspace: yes"

  /** Python's `marker in (stdout, stderr)`: the marker equals one whole stream. */
  predicate InEitherStream(marker: string, out: ToolOutput) {
    marker == out.stdout || marker == out.stderr
  }

  /** `is_adb_available`: "device" occurs in the stdout of `adb devices`. */
  function IsAdbAvailable(run: Responder): (r: Probe<bool>)
    ensures r.issued == ["adb devices"]
    ensures r.value <==> Contains(run("adb devices").stdout, "device")
  {
    QueryLines();
    var q := Query(run, Adb, "devices");
    Probe(Contains(q.value.stdout, DeviceMarker), q.issued)
  }

  /** `is_fastboot_available`: "device" occurs in the stdout of `fastboot devices`. */
  function IsFastbootAvailable(run: Responder): (r: Probe<bool>)
    ensures r.issued == ["fastboot devices"]
    ensures r.value <==> Contains(run("fastboot devices").stdout, "device")
  {
    QueryLines();
    var q := Query(run, Fastboot, "devices");
    Probe(Contains(q.value.stdout, DeviceMarker), q.issued)
  }

  /**
   * `is_unlocked`: indeterminate (`None`) when fastboot lists no device;
   * otherwise whether the `getvar securestate` reply is exactly the unlocked
   * marker on one of its two streams.
   */
  function IsUnlocked(run: Responder): (r: Probe<Option<bool>>)
    ensures r.value.None? <==> !Contains(run("fastboot devices").stdout, "device")
    ensures r.value == Some(true)
        <==> Contains(run("fastboot devices").stdout, "device")
             && InEitherStream("securestate: flashing_unlocked", run("fastboot getvar securestate"))
    ensures r.issued == (if r.value.None? then ["fastboot devices"]
                         else ["fastboot devices", "fastboot getvar securestate"])
  {
    var available := IsFastbootAvailable(run);
    if available.value then
      QueryLines();
      var q := Query(run, Fastboot, "getvar securestate");
      Probe(Some(InEitherStream(UnlockedMarker, q.value)), available.issued + q.issued)
    else
      Probe(None, available.issued)
  }

  /**
   * `get_boot_mode`: adb first, then fastboot, then `getvar is-userspace`;
   * the first test that decides wins and later tools are not queried.
   */
  function GetBootMode(run: Responder): (r: Probe<DeviceMode>)
    ensures r.value == SYSTEM <==> Contains(run("adb devices").stdout, "device")
    ensures r.value == UNKNOWN
        <==> !Contains(run("adb devices").stdout, "device")
             && !Contains(run("fastboot devices").stdout, "device")
    ensures r.value == FASTBOOT
        <==> !Contains(run("adb devices").stdout, "device")
             && Contains(run("fastboot devices").stdout, "device")
             && InEitherStream("is-userspace: yes", run("fastboot getvar is-userspace"))
    ensures r.issued == (match r.value
                         case SYSTEM => ["adb devices"]
                         case UNKNOWN => ["adb devices", "fastboot devices"]
                         case _ => ["adb devices", "fastboot devices", "fastboot getvar is-userspace"])
  {
    var adb := IsAdbAvailable(run);
    if adb.value then Probe(SYSTEM, adb.issued)
    else
      var fastboot := IsFastbootAvailable(run);
      if fastboot.value then
        QueryLines();
        var q := Query(run, Fastboot, "getvar is-userspace");
        var mode := if InEitherStream(UserspaceMarker, q.value) then FASTBOOT else BOOTLOADER;
        Probe(mode, adb.issued + fastboot.issued + q.issued)
      else
        Probe(UNKNOWN, adb.issued + fastboot.issued)
  }

  /** Two oracles that answer every command in `lines` alike. */
  ghost predicate AgreeOn(run1: Responder, run2: Responder, lines: seq<string>) {
    forall k :: 0 <= k < |lines| ==> run1(lines[k]) == run2(lines[k])
  }

  /**
   * The classification depends only on the answers to the commands it issued:
   * in particular, once adb reports a device, whatever fastboot would say
   * cannot change the result.
   */
  lemma BootModeUsesOnlyIssued(run1: Responder, run2: Responder)
    requires AgreeOn(run1, run2, GetBootMode(run1).issued)
    ensures GetBootMode(run2) == GetBootMode(run1)
  {
    var lines := GetBootMode(run1).issued;
    assert run1(lines[0]) == run2(lines[0]);
    if |lines| > 1 {
      assert run1(lines[1]) == run2(lines[1]);
    }
    if |lines| > 2 {
      assert run1(lines[2]) == run2(lines[2]);
    }
  }

  /** The unlock check depends only on the answers to the commands it issued. */
  lemma UnlockUsesOnlyIssued(run1: Responder, run2: Responder)
    requires AgreeOn(run1, run2, IsUnlocked(run1).issued)
    ensures IsUnlocked(run2) == IsUnlocked(run1)
  {
    var lines := IsUnlocked(run1).issued;
    assert run1(lines[0]) == run2(lines[0]);
    if |lines| > 1 {
      assert run1(lines[1]) == run2(lines[1]);
    }
  }

  /** The partition `flash_file` names: `android` when given and non-empty, otherwise the image's stem. */
  function FlashFilePartition(img: Path, android: Option<string>): string {
    if android.None? || android.value == "" then Stem(Name(img)) else android.value
  }

  /** `flash_file`: the image directory never reaches the command. */
  function FlashFile(run: Responder, img: PathLike, imgDir: Option<Path>, android: Option<string>): (r: Probe<ToolOutput>)
    ensures r.issued == ["fastboot flash " + FlashFilePartition(ToPath(img), android) + " " + Str(ToPath(img))]
    ensures r.value == run(r.issued[0])
  {
    var args := "flash " + FlashFilePartition(ToPath(img), android) + " " + Str(ToPath(img));
    assert Invoke(Fastboot, args) == "fastboot flash " + FlashFilePartition(ToPath(img), android) + " " + Str(ToPath(img));
    Query(run, Fastboot, args)
  }

  /** The image directory argument has no effect on what `flash_file` runs. */
  lemma FlashFileIgnoresImgDir(run: Responder, img: PathLike, dir1: Option<Path>, dir2: Option<Path>, android: Option<string>)
    ensures FlashFile(run, img, dir1, android) == FlashFile(run, img, dir2, android)
  {
  }

  // ----- Findings: whole-stream equality where a substring test was meant -----

  /** The unlock check with the marker searched as a substring of either stream. */
  function IsUnlockedIntended(run: Responder): (r: Probe<Option<bool>>)
    ensures r.value.None? <==> !Contains(run("fastboot devices").stdout, "device")
    ensures r.value == Some(true)
        <==> Contains(run("fastboot devices").stdout, "device")
             && (Contains(run("fastboot getvar securestate").stdout, "securestate: flashing_unlocked")
                 || Contains(run("fastboot getvar securestate").stderr, "securestate: flashing_unlocked"))
    ensures r.issued == (if r.value.None? then ["fastboot devices"]
                         else ["fastboot devices", "fastboot getvar securestate"])
  {
    var available := IsFastbootAvailable(run);
    if available.value then
      QueryLines();
      var q := Query(run, Fastboot, "getvar securestate");
      Probe(Some(Contains(q.value.stdout, UnlockedMarker) || Contains(q.value.stderr, UnlockedMarker)),
            available.issued + q.issued)
    else
      Probe(None, available.issued)
  }

  /** A tool whose fastboot listing names a device and which answers `getvar` with `reply` on stdout. */
  function FastbootAnswering(reply: string): Responder {
    (line: string) =>
      if line == "fastboot devices" then ToolOutput("0123456789\tdevice\n", "")
      else ToolOutput(reply, "")
  }

  /**
   * As written, an unlocked device whose reply ends in a newline is reported
   * locked; the corrected check reports it unlocked.
   */
  lemma UnlockedReplyWithNewlineMissed()
    ensures IsUnlocked(FastbootAnswering("securestate: flashing_unlocked\n")).value == Some(false)
    ensures IsUnlockedIntended(FastbootAnswering("securestate: flashing_unlocked\n")).value == Some(true)
  {
    var run := FastbootAnswering("securestate: flashing_unlocked\n");
    assert IsPrefix(DeviceMarker, run("fastboot devices").stdout[11..]);
    ContainsAt(run("fastboot devices").stdout, DeviceMarker);
    assert IsPrefix(UnlockedMarker, run("fastboot getvar securestate").stdout);
  }

  /**
   * The corrected check recognises the marker wherever it occurs in either
   * stream, and agrees with the written check on every reply the latter
   * accepts.
   */
  lemma IntendedUnlockFindsMarker(run: Responder, i: nat)
    requires Contains(run("fastboot devices").stdout, "device")
    requires i <= |run("fastboot getvar securestate").stdout|
    requires IsPrefix("securestate: flashing_unlocked", run("fastboot getvar securestate").stdout[i..])
    ensures IsUnlockedIntended(run).value == Some(true)
  {
    QueryLines();
    ContainsAt(run("fastboot getvar securestate").stdout, UnlockedMarker);
  }

  /** Whatever the written check calls unlocked, the corrected one does too. */
  lemma IntendedUnlockExtendsWritten(run: Responder)
    ensures IsUnlocked(run).value == Some(true) ==> IsUnlockedIntended(run).value == Some(true)
    ensures IsUnlocked(run).value.None? <==> IsUnlockedIntended(run).value.None?
    ensures IsUnlockedIntended(run).issued == IsUnlocked(run).issued
  {
    var out := run("fastboot getvar securestate");
    if out.stdout == UnlockedMarker {
      EqualContains(out.stdout, UnlockedMarker);
    }
    if out.stderr == UnlockedMarker {
      EqualContains(out.stderr, UnlockedMarker);
    }
  }

  /** The boot-mode classifier with the userspace marker searched as a substring of either stream. */
  function GetBootModeIntended(run: Responder): (r: Probe<DeviceMode>)
    ensures r.value == SYSTEM <==> Contains(run("adb devices").stdout, "device")
    ensures r.value == UNKNOWN
        <==> !Contains(run("adb devices").stdout, "device")
             && !Contains(run("fastboot devices").stdout, "device")
    ensures r.value == FASTBOOT
        <==> !Contains(run("adb devices").stdout, "device")
             && Contains(run("fastboot devices").stdout, "device")
             && (Contains(run("fastboot getvar is-userspace").stdout, "is-userspace: yes")
                 || Contains(run("fastboot getvar is-userspace").stderr, "is-userspace: yes"))
    ensures r.issued == (match r.value
                         case SYSTEM => ["adb devices"]
                         case UNKNOWN => ["adb devices", "fastboot devices"]
                         case _ => ["adb devices", "fastboot devices", "fastboot getvar is-userspace"])
  {
    var adb := IsAdbAvailable(run);
    if adb.value then Probe(SYSTEM, adb.issued)
    else
      var fastboot := IsFastbootAvailable(run);
      if fastboot.value then
        QueryLines();
        var q := Query(run, Fastboot, "getvar is-userspace");
        var yes := Contains(q.value.stdout, UserspaceMarker) || Contains(q.value.stderr, UserspaceMarker);
        Probe(if yes then FASTBOOT else BOOTLOADER, adb.issued + fastboot.issued + q.issued)
      else
        Probe(UNKNOWN, adb.issued + fastboot.issued)
  }

  /** A tool with no adb device, a fastboot device, and `reply` as the `getvar` answer. */
  function FastbootOnly(reply: string): Responder {
    (line: string) =>
      if line == "adb devices" then ToolOutput("", "")
      else if line == "fastboot devices" then ToolOutput("0123456789\tdevice\n", "")
      else ToolOutput(reply, "")
  }

  /**
   * As written, a device in userspace fastboot whose reply ends in a newline
   * is classified BOOTLOADER; the corrected classifier says FASTBOOT.
   */
  lemma UserspaceReplyWithNewlineMissed()
    ensures GetBootMode(FastbootOnly("is-userspace: yes\n")).value == BOOTLOADER
    ensures GetBootModeIntended(FastbootOnly("is-userspace: yes\n")).value == FASTBOOT
  {
    var run := FastbootOnly("is-userspace: yes\n");
    assert IsPrefix(DeviceMarker, run("fastboot devices").stdout[11..]);
    ContainsAt(run("fastboot devices").stdout, DeviceMarker);
    assert IsPrefix(UserspaceMarker, run("fastboot getvar is-userspace").stdout);
  }

  /**
   * Whatever the written classifier calls FASTBOOT, the corrected one does
   * too; whatever the corrected one calls BOOTLOADER, the written one does
   * too; and on SYSTEM and UNKNOWN the two agree in both directions.
   */
  lemma IntendedBootModeExtendsWritten(run: Responder)
    ensures GetBootMode(run).value == FASTBOOT ==> GetBootModeIntended(run).value == FASTBOOT
    ensures GetBootModeIntended(run).value == BOOTLOADER ==> GetBootMode(run).value == BOOTLOADER
    ensures GetBootMode(run).value in {SYSTEM, UNKNOWN} ==> GetBootModeIntended(run) == GetBootMode(run)
    ensures GetBootModeIntended(run).value in {SYSTEM, UNKNOWN} ==> GetBootMode(run) == GetBootModeIntended(run)
  {
    var out := run("fastboot getvar is-userspace");
    if out.stdout == UserspaceMarker {
      EqualContains(out.stdout, UserspaceMarker);
    }
    if out.stderr == UserspaceMarker {
      EqualContains(out.stderr, UserspaceMarker);
    }
  }
}

=== FILE: disk.dfy ===
/**
 * An abstract filesystem: the set of existing paths, each a file or a
 * directory, with the three operations the tool performs on it (`rmtree`,
 * `mkdir`, archive extraction) and the existence check it logs.
 */
module Disk {
  import opened Wrappers
  import opened Paths
  import opened Errors

  datatype Kind = File | Directory

  type FileSystem = map<Path, Kind>

  predicate IsFile(fs: FileSystem, p: Path) {
    p in fs && fs[p] == File
  }

  predicate IsDir(fs: FileSystem, p: Path) {
    p in fs && fs[p] == Directory
  }

  /** `q` is `root` itself or lies somewhere below it. */
  predicate Within(root: Path, q: Path) {
    root.absolute == q.absolute && root.parts <= q.parts
  }

  /** The path made of the first `k` components of `p`: `p` itself or one of its ancestors. */
  function Prefix(p: Path, k: nat): Path
    requires k <= |p.parts|
  {
    Path(p.absolute, p.parts[..k])
  }

  /** `p` together with all of its ancestors. */
  function Chain(p: Path): set<Path> {
    set k | 0 <= k <= |p.parts| :: Prefix(p, k)
  }

  /** `shutil.rmtree(p)`: removes a directory and everything below it. */
  function RemoveTree(fs: FileSystem, p: Path): (r: Result<FileSystem, Error>)
    ensures r.Success? <==> IsDir(fs, p)
    ensures p !in fs ==> r == Failure(FileNotFound(p))
    ensures r.Success? ==> forall q :: q in r.value <==> q in fs && !Within(p, q)
    ensures r.Success? ==> forall q :: q in r.value ==> r.value[q] == fs[q]
  {
    if p !in fs then Failure(FileNotFound(p))
    else if fs[p] == File then Failure(NotADirectory(p))
    else Success(map q | q in fs && !Within(p, q) :: fs[q])
  }

  /** `p.mkdir()` without `parents`: the parent must already be a directory. */
  function MakeDir(fs: FileSystem, p: Path): (r: Result<FileSystem, Error>)
    ensures r.Success? <==> p !in fs && (|p.parts| == 0 || IsDir(fs, Parent(p)))
    ensures p in fs ==> r == Failure(FileExists(p))
    ensures r.Success? ==> IsDir(r.value, p)
    ensures r.Success? ==> forall q :: q != p ==> (q in r.value <==> q in fs)
    ensures r.Success? ==> forall q :: q in fs ==> r.value[q] == fs[q]
  {
    if p in fs then Failure(FileExists(p))
    else if |p.parts| > 0 && Parent(p) !in fs then Failure(FileNotFound(p))
    else if |p.parts| > 0 && fs[Parent(p)] == File then Failure(NotADirectory(p))
    else Success(fs[p := Directory])
  }

  /**
   * `ZipFile(archive).extractall(target)` for a non-empty archive: `target`
   * and its missing ancestors are created as directories. The archive's
   * members themselves are not tracked.
   */
  function ExtractArchive(fs: FileSystem, archive: Path, target: Path): (r: Result<FileSystem, Error>)
    ensures r.Success? <==> IsFile(fs, archive)
                            && forall k :: 0 <= k <= |target.parts| ==> !IsFile(fs, Prefix(target, k))
    ensures archive !in fs ==> r == Failure(FileNotFound(archive))
    ensures r.Success? ==> IsDir(r.value, target)
    ensures r.Success? ==> forall q :: q in fs ==> q in r.value && r.value[q] == fs[q]
    ensures r.Success? ==> forall q :: q in r.value && q !in fs ==> Within(q, target)
    ensures r.Success? ==> forall q :: q in r.value && q !in fs ==> r.value[q] == Directory
    ensures r.Success? ==> forall k :: 0 <= k <= |target.parts| ==> IsDir(r.value, Prefix(target, k))
  {
    if archive !in fs then Failure(FileNotFound(archive))
    else if fs[archive] == Directory then Failure(IsADirectory(archive))
    else if exists k :: 0 <= k <= |target.parts| && IsFile(fs, Prefix(target, k)) then Failure(NotADirectory(target))
    else
      assert target == Prefix(target, |target.parts|);
      Success(map q | q in fs.Keys + Chain(target) :: if q in fs then fs[q] else Directory)
  }

  /** One logged existence check. */
  datatype Check = Check(path: Path, found: bool)

  /**
   * Checks every path in order, recording each one, and reports whether all
   * exist. A missing path does not stop the scan.
   */
  method CheckPaths(paths: seq<Path>, fs: FileSystem) returns (allExist: bool, checks: seq<Check>)
    ensures allExist <==> forall k :: 0 <= k < |paths| ==> paths[k] in fs
    ensures |checks| == |paths|
    ensures forall k :: 0 <= k < |paths| ==> checks[k] == Check(paths[k], paths[k] in fs)
  {
    allExist := true;
    checks := [];
    for i := 0 to |paths|
      invariant |checks| == i
      invariant forall k :: 0 <= k < i ==> checks[k] == Check(paths[k], paths[k] in fs)
      invariant allExist <==> forall k :: 0 <= k < i ==> paths[k] in fs
    {
      var found := paths[i] in fs;
      checks := checks + [Check(paths[i], found)];
      if !found {
        allExist := false;
      }
    }
  }
}

=== FILE: errors.dfy ===
/** The Python exceptions the modelled code can raise, carried as data. */
module Errors {
  import opened Paths

  datatype Error =
      /** `ValueError` from `with_suffix` on a path whose name is empty. */
    | EmptyName(path: Path)
      /** `FileNotFoundError`. */
    | FileNotFound(path: Path)
      /** `FileExistsError`, raised by `mkdir` on an existing path. */
    | FileExists(path: Path)
      /** `NotADirectoryError`. */
    | NotADirectory(path: Path)
      /** `IsADirectoryError`, raised when a directory is opened as an archive. */
    | IsADirectory(path: Path)
      /** `CalledProcessError` from a `check=True` subprocess that exited non-zero. */
    | CommandFailed(command: string)
}

=== FILE: file_handler.dfy ===
/**
 * romflash/FileHandler.py: where the archive is unpacked, how the working
 * directory is cleared and recreated, and the logged existence check.
 */
module FileHandler {
  import opened Wrappers
  import opened Paths
  import opened Errors
  import opened Disk
  import Text

  /** The paths one flashing session works with. */
  datatype FileHandler = FileHandler(romZip: Path, workingDirectory: Path, romZipExtracted: Path)

  /** `Path("rom")` is the single relative component "rom". */
  lemma RomPart()
    ensures Parse("rom") == Path(false, ["rom"])
  {
    ParseStr(Path(false, ["rom"]));
  }

  /**
   * The constructor. The working directory defaults to the archive path
   * without its last suffix (a `ValueError` for a path without a name), the
   * extraction directory to `working_directory / "rom"`; explicit arguments
   * are used as given. A missing archive raises `FileNotFoundError`.
   */
  function New(romZip: Path, romZipExtracted: Option<Path>, workingDirectory: Option<Path>, fs: FileSystem)
    : (r: Result<FileHandler, Error>)
    ensures workingDirectory.None? && Name(romZip) == "" ==> r == Failure(EmptyName(romZip))
    ensures (workingDirectory.Some? || Name(romZip) != "") && romZip !in fs ==> r == Failure(FileNotFound(romZip))
    ensures r.Success? <==> romZip in fs && (workingDirectory.Some? || Name(romZip) != "")
    ensures r.Success? ==> r.value.romZip == romZip
    ensures r.Success? && workingDirectory.Some? ==> r.value.workingDirectory == workingDirectory.value
    ensures r.Success? && workingDirectory.None? ==>
              var wd := r.value.workingDirectory;
              wd.absolute == romZip.absolute && |wd.parts| == |romZip.parts| && Parent(wd) == Parent(romZip)
              && Name(wd) + Suffix(Name(romZip)) == Name(romZip)
    ensures r.Success? && romZipExtracted.Some? ==> r.value.romZipExtracted == romZipExtracted.value
    ensures r.Success? && romZipExtracted.None? ==>
              var wd := r.value.workingDirectory;
              r.value.romZipExtracted == Path(wd.absolute, wd.parts + ["rom"])
  {
    var wd :=
      match workingDirectory
      case Some(given) => Some(given)
      case None => WithoutSuffix(romZip);
    match wd
    case None => Failure(EmptyName(romZip))
    case Some(wd) =>
      RomPart();
      var extracted := if romZipExtracted.Some? then romZipExtracted.value else Div(wd, Parse("rom"));
      if romZip !in fs then Failure(FileNotFound(romZip))
      else Success(FileHandler(romZip, wd, extracted))
  }

  /** The text "/roms/device.zip" parses to the absolute path roms/device.zip. */
  lemma ExampleZipParses()
    ensures Parse("/roms/device.zip") == Path(true, ["roms", "device.zip"])
  {
    var zip := Path(true, ["roms", "device.zip"]);
    assert Text.Join(zip.parts, '/') == "roms/device.zip";
    assert Str(zip) == "/roms/device.zip";
    ParseStr(zip);
  }

  /** The archive name "device.zip" has stem "device". */
  lemma ExampleStem()
    ensures Stem("device.zip") == "device"
  {
    assert "device.zip" == "device" + "." + "zip";
    StemOfDotted("device", "zip");
  }

  /** The printed forms of /roms/device and /roms/device/rom. */
  lemma ExampleStrings()
    ensures Str(Path(true, ["roms", "device"])) == "/roms/device"
    ensures Str(Path(true, ["roms", "device", "rom"])) == "/roms/device/rom"
  {
    assert Text.Join(["rom"], '/') == "rom";
    assert Text.Join(["device", "rom"], '/') == "device/rom";
    assert Text.Join(["roms", "device", "rom"], '/') == "roms/device/rom";
    assert Text.Join(["device"], '/') == "device";
    assert Text.Join(["roms", "device"], '/') == "roms/device";
  }

  /** /roms/device.zip without its suffix is /roms/device. */
  lemma ExampleWithoutSuffix()
    ensures WithoutSuffix(Path(true, ["roms", "device.zip"])) == Some(Path(true, ["roms", "device"]))
  {
    ExampleStem();
    var zip := Path(true, ["roms", "device.zip"]);
    assert Name(zip) == "device.zip";
    assert zip.parts[..1] + ["device"] == ["roms", "device"];
  }

  /** An archive given as "/roms/device.zip" is unpacked under /roms/device/rom by default. */
  lemma DefaultLayoutExample(fs: FileSystem)
    requires Parse("/roms/device.zip") in fs
    ensures New(Parse("/roms/device.zip"), None, None, fs).Success?
    ensures Str(New(Parse("/roms/device.zip"), None, None, fs).value.workingDirectory) == "/roms/device"
    ensures Str(New(Parse("/roms/device.zip"), None, None, fs).value.romZipExtracted) == "/roms/device/rom"
  {
    ExampleZipParses();
    DefaultLayoutOf(fs);
    ExampleStrings();
  }

  /** The handler built for the parsed archive path, with both directories defaulted. */
  lemma DefaultLayoutOf(fs: FileSystem)
    requires Path(true, ["roms", "device.zip"]) in fs
    ensures New(Path(true, ["roms", "device.zip"]), None, None, fs)
            == Success(FileHandler(Path(true, ["roms", "device.zip"]), Path(true, ["roms", "device"]),
                                   Path(true, ["roms", "device", "rom"])))
  {
    var zip := Path(true, ["roms", "device.zip"]);
    var wd := Path(true, ["roms", "device"]);
    ExampleWithoutSuffix();
    var r := New(zip, None, None, fs);
    assert r.value.workingDirectory == wd;
    assert wd.parts + ["rom"] == ["roms", "device", "rom"];
  }

  /**
   * `verify_paths`: whether every path exists (true for none). Every path is
   * checked and, when a logger is supplied, logged, even after a missing one;
   * the logger does not influence the answer.
   */
  method VerifyPaths(paths: seq<Path>, fs: FileSystem, logger: bool) returns (allExist: bool, log: seq<Check>)
    ensures allExist <==> forall k :: 0 <= k < |paths| ==> paths[k] in fs
    ensures logger ==> |log| == |paths| && forall k :: 0 <= k < |paths| ==> log[k] == Check(paths[k], paths[k] in fs)
    ensures !logger ==> log == []
  {
    var checks;
    allExist, checks := CheckPaths(paths, fs);
    log := if logger then checks else [];
  }

  /**
   * `prepare_working_directory`: `rmtree` the working directory (which must
   * exist and be a directory), then `mkdir` it again, empty. Nothing outside
   * it changes.
   */
  function PrepareWorkingDirectory(h: FileHandler, fs: FileSystem): (r: Result<FileSystem, Error>)
    ensures h.workingDirectory !in fs ==> r == Failure(FileNotFound(h.workingDirectory))
    ensures r.Success? <==> IsDir(fs, h.workingDirectory)
                            && (|h.workingDirectory.parts| == 0 || IsDir(fs, Parent(h.workingDirectory)))
    ensures r.Success? ==> IsDir(r.value, h.workingDirectory)
    ensures r.Success? ==> forall q :: q in r.value && Within(h.workingDirectory, q) ==> q == h.workingDirectory
    ensures r.Success? ==> forall q :: !Within(h.workingDirectory, q) ==> (q in r.value <==> q in fs)
    ensures r.Success? ==> forall q :: q in fs && q in r.value && q != h.workingDirectory ==> r.value[q] == fs[q]
  {
    var wd := h.workingDirectory;
    match RemoveTree(fs, wd)
    case Failure(e) => Failure(e)
    case Success(cleared) =>
      assert |wd.parts| > 0 ==> !Within(wd, Parent(wd));
      MakeDir(cleared, wd)
  }

  /** `extract_rom`: unpacks the archive into the extraction directory; the two existence checks only log. */
  function ExtractRom(h: FileHandler, fs: FileSystem): (r: Result<FileSystem, Error>)
    ensures h.romZip !in fs ==> r == Failure(FileNotFound(h.romZip))
    ensures r.Success? <==>
              IsFile(fs, h.romZip)
              && forall k :: 0 <= k <= |h.romZipExtracted.parts| ==> !IsFile(fs, Prefix(h.romZipExtracted, k))
    ensures r.Success? ==> IsDir(r.value, h.romZipExtracted)
    ensures r.Success? ==> forall q :: q in fs ==> q in r.value && r.value[q] == fs[q]
    ensures r.Success? ==> forall q :: q in r.value && q !in fs ==> r.value[q] == Directory
    ensures r.Success? ==> forall k :: 0 <= k <= |h.romZipExtracted.parts| ==> IsDir(r.value, Prefix(h.romZipExtracted, k))
  {
    ExtractArchive(fs, h.romZip, h.romZipExtracted)
  }

  /**
   * Preparing and then extracting, with the default layout, leaves exactly
   * the working directory and the extraction directory below the working
   * directory.
   */
  lemma PrepareThenExtract(h: FileHandler, fs: FileSystem)
    requires h.romZipExtracted == Path(h.workingDirectory.absolute, h.workingDirectory.parts + ["rom"])
    requires IsFile(fs, h.romZip) && !Within(h.workingDirectory, h.romZip)
    requires forall k :: 0 <= k < |h.workingDirectory.parts| ==> !IsFile(fs, Prefix(h.workingDirectory, k))
    requires PrepareWorkingDirectory(h, fs).Success?
    ensures ExtractRom(h, PrepareWorkingDirectory(h, fs).value).Success?
    ensures var fs2 := ExtractRom(h, PrepareWorkingDirectory(h, fs).value).value;
            forall q :: q in fs2 && Within(h.workingDirectory, q) ==> q == h.workingDirectory || q == h.romZipExtracted
  {
    var wd := h.workingDirectory;
    var ex := h.romZipExtracted;
    var fs1 := PrepareWorkingDirectory(h, fs).value;
    forall k | 0 <= k <= |ex.parts|
      ensures !IsFile(fs1, Prefix(ex, k))
    {
      if k < |wd.parts| {
        assert Prefix(ex, k) == Prefix(wd, k);
        assert !Within(wd, Prefix(wd, k));
      } else if k == |wd.parts| {
        assert Prefix(ex, k) == wd;
      } else {
        assert Prefix(ex, k) == ex;
        assert Within(wd, ex) && ex != wd;
      }
    }
    var fs2 := ExtractRom(h, fs1).value;
    forall q | q in fs2 && Within(wd, q)
      ensures q == wd || q == ex
    {
      if q !in fs1 {
        assert Within(q, ex);
        assert |wd.parts| <= |q.parts| <= |ex.parts|;
        if |q.parts| == |wd.parts| {
          assert q.parts == wd.parts;
        } else {
          assert q.parts == ex.parts;
        }
      }
    }
  }

  /** Extracting before preparing is undone: clearing the working directory removes the extraction. */
  lemma ExtractThenPrepareLosesRom(h: FileHandler, fs: FileSystem)
    requires h.romZipExtracted == Path(h.workingDirectory.absolute, h.workingDirectory.parts + ["rom"])
    requires ExtractRom(h, fs).Success?
    requires PrepareWorkingDirectory(h, ExtractRom(h, fs).value).Success?
    ensures h.romZipExtracted !in PrepareWorkingDirectory(h, ExtractRom(h, fs).value).value
  {
    assert Within(h.workingDirectory, h.romZipExtracted);
  }
}

=== FILE: flash.dfy ===
/**
 * The flashing base class of romflash/modes/Flash.py: its own boot-mode
 * classifier and unlock check (substring tests on stdout), the logged path
 * check, the yes/no prompt, the flash command, and the preparation that
 * starts every full flash (clear the working directory, unpack the archive).
 * The four mode constants of romflash/modes/device_mode are taken to be the
 * `DeviceMode` values.
 */
module Flash {
  import opened Wrappers
  import opened Text
  import opened Paths
  import opened Errors
  import opened Disk
  import opened Device

  /** The paths a flashing mode works with. */
  datatype Flash = Flash(romZip: Path, workingDirectory: Path, extractedDirectory: Path)

  /**
   * The constructor: the extraction directory is `working_directory /
   * rom_zip.with_suffix("")`, so an absolute archive path replaces the
   * working directory altogether.
   */
  function New(romZip: Path, workingDirectory: Path): (r: Result<Flash, Error>)
    ensures r.Failure? <==> Name(romZip) == ""
    ensures r.Failure? ==> r.error == EmptyName(romZip)
    ensures r.Success? ==> r.value.romZip == romZip && r.value.workingDirectory == workingDirectory
    ensures r.Success? ==> |r.value.extractedDirectory.parts| > 0
    ensures r.Success? && romZip.absolute ==>
              var e := r.value.extractedDirectory;
              e.absolute && Parent(e) == Parent(romZip)
    ensures r.Success? && !romZip.absolute ==>
              var e := r.value.extractedDirectory;
              e.absolute == workingDirectory.absolute
              && e.parts == workingDirectory.parts + Parent(romZip).parts + [Name(e)]
    ensures r.Success? ==> Name(r.value.extractedDirectory) + Suffix(Name(romZip)) == Name(romZip)
  {
    match WithoutSuffix(romZip)
    case None => Failure(EmptyName(romZip))
    case Some(stripped) =>
      var e := Div(workingDirectory, stripped);
      assert stripped.parts == Parent(stripped).parts + [Name(stripped)];
      Success(Flash(romZip, workingDirectory, e))
  }

  /** `isAdbAvailable`: "device" occurs in the stdout of `adb devices`. */
  function IsAdbAvailable(run: Responder): (r: Probe<bool>)
    ensures r.issued == ["adb devices"]
    ensures r.value <==> Contains(run("adb devices").stdout, "device")
  {
    Probe(Contains(run("adb devices").stdout, DeviceMarker), ["adb devices"])
  }

  /** `isFastBootAvailable`: "device" occurs in the stdout of `fastboot devices`. */
  function IsFastBootAvailable(run: Responder): (r: Probe<bool>)
    ensures r.issued == ["fastboot devices"]
    ensures r.value <==> Contains(run("fastboot devices").stdout, "device")
  {
    Probe(Contains(run("fastboot devices").stdout, DeviceMarker), ["fastboot devices"])
  }

  /** Both availability checks ask the same question as their romflash/Device.py twins. */
  lemma AvailabilityMatchesDevice(run: Responder)
    ensures IsAdbAvailable(run) == Device.IsAdbAvailable(run)
    ensures IsFastBootAvailable(run) == Device.IsFastbootAvailable(run)
  {
  }

  /**
   * `isBootloaderUnlocked`: `None` when fastboot lists no device; otherwise
   * whether the unlocked marker occurs anywhere in the `getvar securestate`
   * stdout.
   */
  function IsBootloaderUnlocked(run: Responder): (r: Probe<Option<bool>>)
    ensures r.value.None? <==> !Contains(run("fastboot devices").stdout, "device")
    ensures r.value == Some(true)
        <==> Contains(run("fastboot devices").stdout, "device")
             && Contains(run("fastboot getvar securestate").stdout, "securestate: flashing_unlocked")
    ensures r.issued == (if r.value.None? then ["fastboot devices"]
                         else ["fastboot devices", "fastboot getvar securestate"])
  {
    var available := IsFastBootAvailable(run);
    if available.value then
      var out := run("fastboot getvar securestate");
      Probe(Some(Contains(out.stdout, UnlockedMarker)), available.issued + ["fastboot getvar securestate"])
    else
      Probe(None, available.issued)
  }

  /**
   * `getDeviceMode`: SYSTEM when adb lists a device; else UNKNOWN when
   * fastboot lists none; else FASTBOOT exactly when "is-userspace: yes"
   * occurs in the `getvar is-userspace` stdout, and BOOTLOADER otherwise.
   */
  function GetDeviceMode(run: Responder): (r: Probe<DeviceMode>)
    ensures r.value == SYSTEM <==> Contains(run("adb devices").stdout, "device")
    ensures r.value == UNKNOWN
        <==> !Contains(run("adb devices").stdout, "device")
             && !Contains(run("fastboot devices").stdout, "device")
    ensures r.value == FASTBOOT
        <==> !Contains(run("adb devices").stdout, "device")
             && Contains(run("fastboot devices").stdout, "device")
             && Contains(run("fastboot getvar is-userspace").stdout, "is-userspace: yes")
    ensures r.issued == (match r.value
                         case SYSTEM => ["adb devices"]
                         case UNKNOWN => ["adb devices", "fastboot devices"]
                         case _ => ["adb devices", "fastboot devices", "fastboot getvar is-userspace"])
  {
    var adb := IsAdbAvailable(run);
    if adb.value then Probe(SYSTEM, adb.issued)
    else
      var fastboot := IsFastBootAvailable(run);
      if fastboot.value then
        var out := run("fastboot getvar is-userspace");
        var mode := if Contains(out.stdout, UserspaceMarker) then FASTBOOT else BOOTLOADER;
        Probe(mode, adb.issued + fastboot.issued + ["fastboot getvar is-userspace"])
      else
        Probe(UNKNOWN, adb.issued + fastboot.issued)
  }

  /**
   * The two classifiers agree whenever the userspace reply is read the same
   * way by a whole-stream comparison and by a stdout substring search; in
   * particular they always agree on SYSTEM and UNKNOWN.
   */
  lemma ModeVariantsAgree(run: Responder)
    ensures (GetDeviceMode(run).value == SYSTEM) == (GetBootMode(run).value == SYSTEM)
    ensures (GetDeviceMode(run).value == UNKNOWN) == (GetBootMode(run).value == UNKNOWN)
    ensures (InEitherStream("is-userspace: yes", run("fastboot getvar is-userspace"))
             <==> Contains(run("fastboot getvar is-userspace").stdout, "is-userspace: yes"))
            ==> GetDeviceMode(run) == GetBootMode(run)
  {
  }

  /** A reply on stderr only is FASTBOOT for romflash/Device.py but BOOTLOADER here. */
  lemma ModeVariantsDifferOnStderr()
    ensures GetBootMode(FastbootOnlyOnStderr()).value == FASTBOOT
    ensures GetDeviceMode(FastbootOnlyOnStderr()).value == BOOTLOADER
  {
    var run := FastbootOnlyOnStderr();
    assert IsPrefix(DeviceMarker, run("fastboot devices").stdout[11..]);
    ContainsAt(run("fastboot devices").stdout, DeviceMarker);
    QueryLines();
  }

  /** No adb device, a fastboot device, and "is-userspace: yes" written to stderr. */
  function FastbootOnlyOnStderr(): Responder {
    (line: string) =>
      if line == "adb devices" then ToolOutput("", "")
      else if line == "fastboot devices" then ToolOutput("0123456789\tdevice\n", "")
      else ToolOutput("", "is-userspace: yes")
  }

  /** Both unlock checks are indeterminate in exactly the same situations, and agree when stdout is exactly the marker. */
  lemma UnlockVariantsAgree(run: Responder)
    ensures IsBootloaderUnlocked(run).value.None? <==> IsUnlocked(run).value.None?
    ensures run("fastboot getvar securestate").stdout == "securestate: flashing_unlocked"
            ==> IsBootloaderUnlocked(run) == IsUnlocked(run)
  {
    var out := run("fastboot getvar securestate");
    if out.stdout == UnlockedMarker {
      EqualContains(out.stdout, UnlockedMarker);
    }
  }

  /**
   * `verifyFilePaths`: whether every path exists (true for none); every path
   * is checked and logged, also after a missing one.
   */
  method VerifyFilePaths(paths: seq<Path>, fs: FileSystem) returns (allExist: bool, log: seq<Check>)
    ensures allExist <==> forall k :: 0 <= k < |paths| ==> paths[k] in fs
    ensures |log| == |paths|
    ensures forall k :: 0 <= k < |paths| ==> log[k] == Check(paths[k], paths[k] in fs)
  {
    allExist, log := CheckPaths(paths, fs);
  }

  /** What the prompt decided and the question it displayed, if any. */
  datatype PromptResult = PromptResult(answer: bool, shown: seq<string>)

  /** The suffix shown after the question; it is the only thing the default changes. */
  function PromptSuffix(defaultAnswer: bool): string {
    if defaultAnswer then "[Y/n]: " else "[y/N]: "
  }

  /**
   * `ynprompt`: when skipped, the default answer without any question;
   * otherwise the question is shown and the answer is yes exactly when the
   * reply is a lone 'y' or 'Y' between white space.
   */
  function YnPrompt(msg: string, defaultAnswer: bool, skip: bool, reply: string): (r: PromptResult)
    ensures skip ==> r == PromptResult(defaultAnswer, [])
    ensures !skip ==> (r.answer <==> IsYesReply(reply))
    ensures !skip ==> r.shown == [msg + PromptSuffix(defaultAnswer)]
  {
    if skip then PromptResult(defaultAnswer, [])
    else
      StripLowerIsY(reply);
      PromptResult(Lower(Strip(reply)) == "y", [msg + PromptSuffix(defaultAnswer)])
  }

  /** An interactive answer does not depend on the default; an empty reply is always no. */
  lemma PromptIgnoresDefault(msg: string, reply: string)
    ensures YnPrompt(msg, true, false, reply).answer == YnPrompt(msg, false, false, reply).answer
    ensures !YnPrompt(msg, true, false, "").answer
    ensures YnPrompt(msg, true, false, " Y\n").answer
  {
    var r := " Y\n";
    assert r[1] == 'Y' && AllSpace(r[..1]) && AllSpace(r[2..]);
  }

  /** The partition `flash` names: `android` when given, else the image path without its last suffix. */
  function FlashPartition(img: Path, android: Option<Path>): Option<Path> {
    if android.Some? then android else WithoutSuffix(img)
  }

  /**
   * `flash`: "fastboot flash <partition> <image>"; an image without a name
   * and no partition raises `ValueError`. The image directory does not reach
   * the command.
   */
  function FlashCommand(f: Flash, img: PathLike, android: Option<Path>, imgDir: Option<Path>): (r: Result<string, Error>)
    ensures r.Failure? <==> android.None? && Name(ToPath(img)) == ""
    ensures r.Failure? ==> r.error == EmptyName(ToPath(img))
    ensures r.Success? && android.Some? ==> r.value == "fastboot flash " + Str(android.value) + " " + Str(ToPath(img))
    ensures r.Success? && android.None? ==>
              exists stripped :: WithoutSuffix(ToPath(img)) == Some(stripped)
                                 && r.value == "fastboot flash " + Str(stripped) + " " + Str(ToPath(img))
  {
    var path := ToPath(img);
    var dir := if imgDir.Some? then imgDir.value else f.extractedDirectory;
    match FlashPartition(path, android)
    case None => Failure(EmptyName(path))
    case Some(partition) => Success("fastboot flash " + Str(partition) + " " + Str(path))
  }

  /** Without an explicit partition, the partition is the image path without its suffix. */
  lemma FlashCommandOfStem(f: Flash, img: PathLike, stripped: Path)
    requires WithoutSuffix(ToPath(img)) == Some(stripped)
    ensures FlashCommand(f, img, None, None) == Success("fastboot flash " + Str(stripped) + " " + Str(ToPath(img)))
  {
  }

  /**
   * For a bare file name both flash commands coincide: `with_suffix("")` of
   * a one-component relative path is its stem.
   */
  lemma FlashMatchesFlashFileOnBareNames(f: Flash, run: Responder, name: string, dir1: Option<Path>, dir2: Option<Path>)
    requires ValidPart(name)
    ensures FlashCommand(f, FromStr(name), None, dir1).Success?
    ensures FlashFile(run, FromStr(name), dir2, None).issued == [FlashCommand(f, FromStr(name), None, dir1).value]
  {
    var p := Path(false, [name]);
    assert Str(p) == name;
    ParseStr(p);
    var stem := Stem(name);
    assert '/' !in stem by {
      assert stem == name[..|stem|];
    }
    assert Str(Path(false, [stem])) == stem;
    assert WithoutSuffix(p) == Some(Path(false, [stem]));
  }

  /** `createWorkingDir`: remove the working directory if it is a directory, then create it empty. */
  function CreateWorkingDir(f: Flash, fs: FileSystem): (r: Result<FileSystem, Error>)
    ensures IsFile(fs, f.workingDirectory) ==> r == Failure(FileExists(f.workingDirectory))
    ensures r.Success? <==> !IsFile(fs, f.workingDirectory)
                            && (|f.workingDirectory.parts| == 0 || IsDir(fs, Parent(f.workingDirectory)))
    ensures r.Success? ==> IsDir(r.value, f.workingDirectory)
    ensures r.Success? && IsDir(fs, f.workingDirectory) ==>
              forall q :: q in r.value && Within(f.workingDirectory, q) ==> q == f.workingDirectory
    ensures r.Success? ==> forall q :: !Within(f.workingDirectory, q) ==> (q in r.value <==> q in fs)
    ensures r.Success? ==> forall q :: q in r.value ==> q == f.workingDirectory || q in fs
    ensures r.Success? ==> forall q :: q in fs && q in r.value && q != f.workingDirectory ==> r.value[q] == fs[q]
    ensures r.Success? && !IsDir(fs, f.workingDirectory) ==> forall q :: q in fs ==> q in r.value
  {
    var wd := f.workingDirectory;
    var cleared := if IsDir(fs, wd) then RemoveTree(fs, wd).value else fs;
    assert |wd.parts| > 0 ==> !Within(wd, Parent(wd));
    MakeDir(cleared, wd)
  }

  /** `extractZip`: unpack the archive into the extraction directory. */
  function ExtractZip(f: Flash, fs: FileSystem): (r: Result<FileSystem, Error>)
    ensures f.romZip !in fs ==> r == Failure(FileNotFound(f.romZip))
    ensures r.Success? <==>
              IsFile(fs, f.romZip)
              && forall k :: 0 <= k <= |f.extractedDirectory.parts| ==> !IsFile(fs, Prefix(f.extractedDirectory, k))
    ensures r.Success? ==> IsDir(r.value, f.extractedDirectory)
    ensures r.Success? ==> forall q :: q in fs ==> q in r.value && r.value[q] == fs[q]
    ensures r.Success? ==> forall q :: q in r.value && q !in fs ==> r.value[q] == Directory
    ensures r.Success? ==> forall k :: 0 <= k <= |f.extractedDirectory.parts| ==> IsDir(r.value, Prefix(f.extractedDirectory, k))
  {
    ExtractArchive(fs, f.romZip, f.extractedDirectory)
  }

  /**
   * The common start of `flashFull`: create the working directory, unpack
   * the archive; the two existence checks only log, so their outcome never
   * stops the run.
   */
  function PrepareSession(f: Flash, fs: FileSystem): (r: Result<FileSystem, Error>)
    ensures IsFile(fs, f.workingDirectory) ==> r == Failure(FileExists(f.workingDirectory))
    ensures f.romZip !in fs ==> r.Failure?
    ensures r.Success? <==>
              && !IsFile(fs, f.workingDirectory)
              && (|f.workingDirectory.parts| == 0 || IsDir(fs, Parent(f.workingDirectory)))
              && IsFile(fs, f.romZip)
              && !(IsDir(fs, f.workingDirectory) && Within(f.workingDirectory, f.romZip))
              && forall k :: 0 <= k <= |f.extractedDirectory.parts| && IsFile(fs, Prefix(f.extractedDirectory, k)) ==>
                   IsDir(fs, f.workingDirectory) && Within(f.workingDirectory, Prefix(f.extractedDirectory, k))
    ensures r.Success? ==> IsDir(r.value, f.workingDirectory) && IsDir(r.value, f.extractedDirectory)
    ensures r.Success? ==> forall q :: q in fs && !Within(f.workingDirectory, q) ==> q in r.value && r.value[q] == fs[q]
    ensures r.Success? ==> forall q :: q in r.value ==> q in fs || q == f.workingDirectory || Within(q, f.extractedDirectory)
    ensures r.Success? ==> forall q :: q in r.value && q !in fs ==> r.value[q] == Directory
    ensures r.Success? ==> forall k :: 0 <= k <= |f.extractedDirectory.parts| ==> IsDir(r.value, Prefix(f.extractedDirectory, k))
    ensures r.Success? && IsDir(fs, f.workingDirectory) ==>
              forall q :: q in r.value && Within(f.workingDirectory, q) ==>
                q == f.workingDirectory || Within(q, f.extractedDirectory)
  {
    match CreateWorkingDir(f, fs)
    case Failure(e) => Failure(e)
    case Success(cleared) =>
      ClearedFiles(f, fs);
      ExtractZip(f, cleared)
  }

  /**
   * After `createWorkingDir`, a path is a file exactly when it was one
   * before and was not cleared away with an existing working directory.
   */
  lemma ClearedFiles(f: Flash, fs: FileSystem)
    requires CreateWorkingDir(f, fs).Success?
    ensures forall q :: IsFile(CreateWorkingDir(f, fs).value, q)
                        <==> IsFile(fs, q) && !(IsDir(fs, f.workingDirectory) && Within(f.workingDirectory, q))
  {
  }

  /**
   * An existing working directory is cleared, not refused: the preparation
   * goes through, and afterwards nothing is left below the working
   * directory but the path down to the extraction directory.
   */
  lemma ExistingWorkingDirectoryCleared(f: Flash, fs: FileSystem)
    requires IsDir(fs, f.workingDirectory)
    requires |f.workingDirectory.parts| > 0 && IsDir(fs, Parent(f.workingDirectory))
    requires IsFile(fs, f.romZip) && !Within(f.workingDirectory, f.romZip)
    requires forall k :: 0 <= k < |f.workingDirectory.parts| ==> !IsFile(fs, Prefix(f.workingDirectory, k))
    requires Within(f.workingDirectory, f.extractedDirectory)
    ensures PrepareSession(f, fs).Success?
    ensures forall q :: q in PrepareSession(f, fs).value && Within(f.workingDirectory, q) ==>
              q == f.workingDirectory || Within(q, f.extractedDirectory)
  {
    var wd := f.workingDirectory;
    var ex := f.extractedDirectory;
    forall k | 0 <= k < |wd.parts|
      ensures Prefix(ex, k) == Prefix(wd, k)
    {
      assert ex.parts[..k] == wd.parts[..k];
    }
    forall k | 0 <= k <= |ex.parts| && IsFile(fs, Prefix(ex, k))
      ensures Within(wd, Prefix(ex, k))
    {
      if k >= |wd.parts| {
        assert ex.parts[..k][..|wd.parts|] == wd.parts;
      }
    }
  }

  /**
   * A working directory that does not exist yet does not stop the run: it is
   * created, and the archive is unpacked below it.
   */
  lemma MissingWorkingDirectoryTolerated(f: Flash, fs: FileSystem)
    requires forall q :: q in fs ==> !Within(f.workingDirectory, q)
    requires |f.workingDirectory.parts| > 0
    requires IsDir(fs, Parent(f.workingDirectory))
    requires forall k :: 0 <= k < |f.workingDirectory.parts| ==> !IsFile(fs, Prefix(f.workingDirectory, k))
    requires IsFile(fs, f.romZip) && !Within(f.workingDirectory, f.romZip)
    requires Within(f.workingDirectory, f.extractedDirectory)
    ensures PrepareSession(f, fs).Success?
  {
    var wd := f.workingDirectory;
    var ex := f.extractedDirectory;
    var fs1 := CreateWorkingDir(f, fs).value;
    forall k | 0 <= k <= |ex.parts|
      ensures !IsFile(fs1, Prefix(ex, k))
    {
      if k < |wd.parts| {
        assert Prefix(ex, k) == Prefix(wd, k);
        assert !Within(wd, Prefix(wd, k));
      } else if k == |wd.parts| {
        assert Prefix(ex, k) == wd;
      } else {
        assert Within(wd, Prefix(ex, k)) && Prefix(ex, k) != wd;
      }
    }
  }
}

=== FILE: paths.dfy ===
/**
 * The part of Python's `pathlib` (POSIX flavour) the tool relies on: parsing
 * a string into a path, printing it back, the final component's `name`,
 * `stem` and `suffix`, `with_suffix("")`, `parent` and the `/` operator.
 */
module Paths {
  import opened Wrappers
  import opened Text

  /** A parsed path: whether it starts at the root, and its components in order. */
  datatype Path = Path(absolute: bool, parts: seq<string>)

  /** An argument typed `Path | str`: a string is parsed as `Path(text)` would. */
  datatype PathLike = FromPath(path: Path) | FromStr(text: string)

  /** A component as pathlib keeps it after parsing. */
  predicate ValidPart(c: string) {
    c != "" && c != "." && '/' !in c
  }

  /** Every component of `p` is one pathlib could have produced. */
  predicate Valid(p: Path) {
    forall k :: 0 <= k < |p.parts| ==> ValidPart(p.parts[k])
  }

  /** The pieces of a split string that pathlib keeps: empty and "." pieces are dropped. */
  function Components(raw: seq<string>): (r: seq<string>)
    ensures forall k :: 0 <= k < |r| ==> r[k] in raw && r[k] != "" && r[k] != "."
    decreases |raw|
  {
    if |raw| == 0 then []
    else (if raw[0] == "" || raw[0] == "." then [] else [raw[0]]) + Components(raw[1..])
  }

  /** Pieces that are already valid components are all kept. */
  lemma {:induction false} ComponentsKeepValid(raw: seq<string>)
    requires forall k :: 0 <= k < |raw| ==> ValidPart(raw[k])
    ensures Components(raw) == raw
    decreases |raw|
  {
    if |raw| > 0 {
      ComponentsKeepValid(raw[1..]);
      assert [raw[0]] + raw[1..] == raw;
    }
  }

  /** `Path(s)`: a leading '/' makes the path absolute; "" and "." pieces vanish. */
  function Parse(s: string): (p: Path)
    ensures Valid(p)
    ensures p.absolute <==> |s| > 0 && s[0] == '/'
  {
    var raw := Split(s, '/');
    var parts := Components(raw);
    assert forall k :: 0 <= k < |parts| ==> '/' !in parts[k] by {
      forall k | 0 <= k < |parts|
        ensures '/' !in parts[k]
      {
        var j :| 0 <= j < |raw| && raw[j] == parts[k];
      }
    }
    Path(|s| > 0 && s[0] == '/', parts)
  }

  /** `str(p)`: components joined by '/', a leading '/' when absolute, "." for the empty relative path. */
  function Str(p: Path): string {
    if p.absolute then "/" + Join(p.parts, '/')
    else if |p.parts| == 0 then "."
    else Join(p.parts, '/')
  }

  /** Printing a valid path and parsing the text back gives the same path. */
  lemma ParseStr(p: Path)
    requires Valid(p)
    ensures Parse(Str(p)) == p
  {
    var s := Str(p);
    if |p.parts| > 0 {
      SplitJoin(p.parts, '/');
      ComponentsKeepValid(p.parts);
    }
    if p.absolute {
      var j := Join(p.parts, '/');
      assert s[1..] == j;
      if |p.parts| == 0 {
        assert Split(s, '/') == ["", ""];
      } else {
        assert Split(s, '/') == [""] + p.parts;
        assert ([""] + p.parts)[1..] == p.parts;
      }
    } else if |p.parts| == 0 {
      SplitNoSep(".", '/');
    } else {
      JoinHead(p.parts, '/');
    }
  }

  /** Parsing normalises: the printed form of a parsed path parses to the same path. */
  lemma ParseNormalizes(s: string)
    ensures Parse(Str(Parse(s))) == Parse(s)
  {
    ParseStr(Parse(s));
  }

  /** `Path(x)` for an argument typed `Path | str`. */
  function ToPath(x: PathLike): Path {
    match x
    case FromPath(p) => p
    case FromStr(s) => Parse(s)
  }

  /** `p.name`: the final component, "" for a path without components. */
  function Name(p: Path): string {
    if |p.parts| == 0 then "" else p.parts[|p.parts| - 1]
  }

  /** `p.parent`: the path without its final component; a bare root is its own parent. */
  function Parent(p: Path): (r: Path)
    ensures r.absolute == p.absolute
    ensures |p.parts| > 0 ==> |r.parts| == |p.parts| - 1 && r.parts + [Name(p)] == p.parts
  {
    if |p.parts| == 0 then p else Path(p.absolute, p.parts[..|p.parts| - 1])
  }

  /**
   * Where the suffix of a name begins: the last '.', provided it is neither
   * the first nor the last character of the name.
   */
  function SuffixStart(name: string): (r: Option<nat>)
    ensures r.Some? ==> 0 < r.value < |name| - 1 && name[r.value] == '.'
                        && forall k :: r.value < k < |name| ==> name[k] != '.'
    ensures r.None? <==> (|name| > 0 && name[|name| - 1] == '.')
                         || forall k :: 0 < k < |name| ==> name[k] != '.'
  {
    var i := LastIndexOf(name, '.');
    if 0 < i < |name| - 1 then Some(i) else None
  }

  /** `suffix` of a name: from its last inner '.' to the end, or "". */
  function Suffix(name: string): (r: string)
    ensures r == "" || (|r| > 1 && r[0] == '.' && '.' !in r[1..])
  {
    match SuffixStart(name)
    case Some(i) => name[i..]
    case None => ""
  }

  /** `stem` of a name: the name without its suffix. */
  function Stem(name: string): (r: string)
    ensures r + Suffix(name) == name
    ensures |name| > 0 ==> |r| > 0
  {
    match SuffixStart(name)
    case Some(i) => name[..i]
    case None => name
  }

  /** A name "base.ext" with dot-free, non-empty `base` and `ext` has stem `base`. */
  lemma StemOfDotted(base: string, ext: string)
    requires |base| > 0 && '.' !in base
    requires |ext| > 0 && '.' !in ext
    ensures Stem(base + "." + ext) == base
    ensures Suffix(base + "." + ext) == "." + ext
  {
    var name := base + "." + ext;
    assert name[|base|] == '.';
    assert forall k :: |base| < k < |name| ==> name[k] == ext[k - |base| - 1];
    assert LastIndexOf(name, '.') == |base|;
    assert name[..|base|] == base;
  }

  /**
   * `p.with_suffix("")`: the final component replaced by its stem. `None`
   * stands for the `ValueError` raised when the path has an empty name.
   */
  function WithoutSuffix(p: Path): (r: Option<Path>)
    ensures r.None? <==> Name(p) == ""
    ensures r.Some? ==> r.value.absolute == p.absolute && |r.value.parts| == |p.parts|
                        && Parent(r.value) == Parent(p)
                        && Name(r.value) + Suffix(Name(p)) == Name(p)
  {
    if Name(p) == "" then None
    else Some(Path(p.absolute, p.parts[..|p.parts| - 1] + [Stem(Name(p))]))
  }

  /** `a / b`: an absolute right operand replaces the left one, otherwise components are appended. */
  function Div(a: Path, b: Path): (r: Path)
    ensures Valid(a) && Valid(b) ==> Valid(r)
    ensures b.absolute ==> r == b
    ensures !b.absolute && |b.parts| == 0 ==> r == a
    ensures !a.absolute && |a.parts| == 0 ==> r == b
    ensures !b.absolute && |a.parts| > 0 && |b.parts| > 0 ==> Str(r) == Str(a) + "/" + Str(b)
  {
    if b.absolute then b
    else if |a.parts| > 0 && |b.parts| > 0 then
      JoinAppend(a.parts, b.parts, '/');
      Path(a.absolute, a.parts + b.parts)
    else
      assert a.parts + [] == a.parts && [] + b.parts == b.parts;
      Path(a.absolute, a.parts + b.parts)
  }
}

=== FILE: soft_flash.dfy ===
/**
 * romflash/modes/SoftFlash.py: the working directory next to the archive and
 * the full flashing sequence. The sequence is a pure function of a script:
 * the two detected boot modes, the operator's two replies, and which shell
 * commands succeed. A failing command raises (the commands run with
 * `check=True`), which ends the run where it is.
 */
module SoftFlash {
  import opened Wrappers
  import opened Text
  import opened Paths
  import opened Errors
  import opened Disk
  import opened Device
  import Flash
  import FileHandler

  /**
   * The constructor: the working directory is the archive path without its
   * last suffix, and the extraction directory is that directory joined with
   * itself, which collapses to the directory itself for an absolute archive.
   */
  function New(romZip: Path): (r: Result<Flash.Flash, Error>)
    ensures r.Failure? <==> Name(romZip) == ""
    ensures r.Failure? ==> r.error == EmptyName(romZip)
    ensures r.Success? ==> r.value.romZip == romZip
    ensures r.Success? ==>
              var wd := r.value.workingDirectory;
              wd.absolute == romZip.absolute && |wd.parts| == |romZip.parts| && Parent(wd) == Parent(romZip)
              && Name(wd) + Suffix(Name(romZip)) == Name(romZip)
    ensures r.Success? && romZip.absolute ==> r.value.extractedDirectory == r.value.workingDirectory
    ensures r.Success? && !romZip.absolute ==>
              var wd := r.value.workingDirectory;
              r.value.extractedDirectory == Path(false, wd.parts + wd.parts)
  {
    match WithoutSuffix(romZip)
    case None => Failure(EmptyName(romZip))
    case Some(wd) => Flash.New(romZip, wd)
  }

  /** The inputs one run depends on, besides the archive and the filesystem. */
  datatype Script = Script(
    firstMode: DeviceMode,
    secondMode: DeviceMode,
    continueReply: string,
    rebootReply: string,
    succeeds: string -> bool)

  /** How a run ends: normally, through `exit(code)`, or with an exception. */
  datatype Outcome = Completed | Exited(code: int) | Raised(error: Error)

  /** Every shell command issued (mode queries aside), every question shown, and the outcome. */
  datatype Session = Session(commands: seq<string>, prompts: seq<string>, outcome: Outcome)

  /** The commands of one stretch that ran, and the exception that cut it short, if any. */
  datatype Stage = Stage(issued: seq<string>, error: Option<Error>)

  /** Every command of `cmds` succeeds. */
  predicate AllSucceed(cmds: seq<string>, ok: string -> bool) {
    forall k :: 0 <= k < |cmds| ==> ok(cmds[k])
  }

  /**
   * Runs `cmds` in order until one fails: the failing command is the last
   * one issued and its failure is the error; nothing after it runs.
   */
  function IssueAll(cmds: seq<string>, ok: string -> bool): (r: Stage)
    ensures r.issued <= cmds
    ensures r.error.None? <==> AllSucceed(cmds, ok)
    ensures r.error.None? ==> r.issued == cmds
    ensures r.error.Some? ==> |r.issued| > 0 && !ok(r.issued[|r.issued| - 1])
                              && r.error.value == CommandFailed(r.issued[|r.issued| - 1])
    ensures forall k :: 0 <= k < |r.issued| - 1 ==> ok(r.issued[k])
    decreases |cmds|
  {
    if |cmds| == 0 then Stage([], None)
    else if !ok(cmds[0]) then Stage([cmds[0]], Some(CommandFailed(cmds[0])))
    else
      var rest := IssueAll(cmds[1..], ok);
      assert AllSucceed(cmds, ok) <==> AllSucceed(cmds[1..], ok) by {
        if AllSucceed(cmds[1..], ok) {
          forall k | 0 <= k < |cmds|
            ensures ok(cmds[k])
          {
            if k > 0 {
              assert cmds[k] == cmds[1..][k - 1];
            }
          }
        }
      }
      assert [cmds[0]] + cmds[1..] == cmds;
      Stage([cmds[0]] + rest.issued, rest.error)
  }

  const WipeCommand: string := "fastboot -w"
  const RebootCommand: string := "fastboot reboot"
  const ContinueQuestion: string := "Something fatal has likely accurd. Would you like to continue?"
  const RebootQuestion: string := "Reboot to system?"
  const FinalImages: seq<string> := ["product.img", "system.img", "vendor.img"]

  /** The update command naming the archive as given. */
  function UpdateCommand(zip: Path): string {
    "fastboot update " + Str(zip)
  }

  /**
   * The step that brings the device into the bootloader, by the mode it was
   * found in; `None` for an unknown mode, where the run exits.
   */
  function RebootToBootloader(mode: DeviceMode): (r: Option<seq<string>>)
    ensures r.None? <==> mode == UNKNOWN
    ensures mode == BOOTLOADER ==> r == Some([])
    ensures mode == SYSTEM ==> r == Some([Invoke(Adb, "reboot bootloader")])
    ensures mode == FASTBOOT ==> r == Some([Invoke(Fastboot, "reboot bootloader")])
  {
    assert Invoke(Adb, "reboot bootloader") == "adb reboot bootloader";
    assert Invoke(Fastboot, "reboot bootloader") == "fastboot reboot bootloader";
    match mode
    case BOOTLOADER => Some([])
    case SYSTEM => Some(["adb reboot bootloader"])
    case FASTBOOT => Some(["fastboot reboot bootloader"])
    case UNKNOWN => None
  }

  /** What `flash(name)` computes for an image of the run: its command, or the exception it raises first. */
  function ImageFlash(f: Flash.Flash): string -> Result<string, Error> {
    name => Flash.FlashCommand(f, FromStr(name), None, None)
  }

  /**
   * Flashes each named image in turn: `flash` may raise before issuing
   * anything (an image without a name), or its command may fail; either
   * ends the stretch.
   */
  function FlashImages(flash: string -> Result<string, Error>, names: seq<string>, ok: string -> bool): (r: Stage)
    ensures |r.issued| <= |names|
    ensures forall k :: 0 <= k < |r.issued| ==> flash(names[k]) == Success(r.issued[k])
    ensures r.error.None? ==> |r.issued| == |names| && AllSucceed(r.issued, ok)
    decreases |names|
  {
    if |names| == 0 then Stage([], None)
    else
      match flash(names[0])
      case Failure(e) => Stage([], Some(e))
      case Success(c) =>
        if !ok(c) then Stage([c], Some(CommandFailed(c)))
        else
          var rest := FlashImages(flash, names[1..], ok);
          var r := Stage([c] + rest.issued, rest.error);
          assert forall k :: 0 < k < |r.issued| ==> r.issued[k] == rest.issued[k - 1] && names[k] == names[1..][k - 1];
          AllSucceedAppend([c], rest.issued, ok);
          r
  }

  /**
   * A stretch of images ends early for one of two reasons: `flash` raised
   * for the next name before issuing it, or the last command issued failed;
   * either way everything issued before succeeded.
   */
  lemma {:induction false} FlashImagesStops(flash: string -> Result<string, Error>, names: seq<string>, ok: string -> bool)
    ensures var r := FlashImages(flash, names, ok);
            r.error.Some? ==>
              || (&& |r.issued| < |names| && flash(names[|r.issued|]).Failure?
                  && r.error.value == flash(names[|r.issued|]).error && AllSucceed(r.issued, ok))
              || (&& |r.issued| > 0 && r.error.value == CommandFailed(r.issued[|r.issued| - 1])
                  && !ok(r.issued[|r.issued| - 1]) && forall k :: 0 <= k < |r.issued| - 1 ==> ok(r.issued[k]))
    decreases |names|
  {
    var r := FlashImages(flash, names, ok);
    if |names| > 0 && flash(names[0]).Success? && ok(flash(names[0]).value) {
      var c := flash(names[0]).value;
      var rest := FlashImages(flash, names[1..], ok);
      FlashImagesStops(flash, names[1..], ok);
      assert r.issued == [c] + rest.issued;
      AllSucceedAppend([c], rest.issued, ok);
      assert forall k :: 0 < k < |r.issued| ==> r.issued[k] == rest.issued[k - 1];
      assert |r.issued| < |names| ==> names[|r.issued|] == names[1..][|rest.issued|];
    }
  }

  /** When every name has a command, flashing the names is issuing those commands. */
  lemma {:induction false} FlashImagesIssues(flash: string -> Result<string, Error>, names: seq<string>, cmds: seq<string>, ok: string -> bool)
    requires |names| == |cmds|
    requires forall k :: 0 <= k < |names| ==> flash(names[k]) == Success(cmds[k])
    ensures FlashImages(flash, names, ok) == IssueAll(cmds, ok)
    decreases |names|
  {
    if |names| > 0 {
      FlashImagesIssues(flash, names[1..], cmds[1..], ok);
    }
  }

  /** The command flashing image "<base>.img" into partition `base`. */
  function ImageCommandText(base: string): string {
    "fastboot flash " + base + " " + base + ".img"
  }

  /** The three image commands. */
  const ImageCommands: seq<string> :=
    [ImageCommandText("product"), ImageCommandText("system"), ImageCommandText("vendor")]

  /** A bare image name "<base>.img" parses to one component whose name without suffix is `base`. */
  lemma BareImagePath(base: string, name: string)
    requires |base| > 0 && '.' !in base && '/' !in base
    requires name == base + ".img"
    ensures Parse(name) == Path(false, [name])
    ensures WithoutSuffix(Path(false, [name])) == Some(Path(false, [base]))
  {
    assert name == base + "." + "img";
    StemOfDotted(base, "img");
    assert '/' !in name by {
      assert forall k :: 0 <= k < |name| ==> name[k] == (if k < |base| then base[k] else ".img"[k - |base|]);
    }
    var p := Path(false, [name]);
    assert Str(p) == name;
    ParseStr(p);
  }

  /** The image command text, with the image name spelled as a whole. */
  lemma ImageCommandJoin(base: string, name: string)
    requires name == base + ".img"
    ensures "fastboot flash " + base + " " + name == ImageCommandText(base)
  {
  }

  /** Flashing a bare image name "<base>.img" issues "fastboot flash <base> <base>.img". */
  lemma ImageCommandOf(f: Flash.Flash, base: string, name: string)
    requires |base| > 0 && '.' !in base && '/' !in base
    requires name == base + ".img"
    ensures Flash.FlashCommand(f, FromStr(name), None, None) == Success(ImageCommandText(base))
  {
    BareImagePath(base, name);
    var p := ToPath(FromStr(name));
    assert p == Path(false, [name]);
    Flash.FlashCommandOfStem(f, FromStr(name), Path(false, [base]));
    assert Str(Path(false, [base])) == base;
    assert Str(p) == name;
    ImageCommandJoin(base, name);
  }

  /** Each final image is flashed by its command. */
  lemma FinalImageFlash(f: Flash.Flash, k: nat)
    requires k < |FinalImages|
    ensures ImageFlash(f)(FinalImages[k]) == Success(ImageCommands[k])
  {
    if k == 0 {
      ImageCommandOf(f, "product", "product.img");
    } else if k == 1 {
      ImageCommandOf(f, "system", "system.img");
    } else {
      ImageCommandOf(f, "vendor", "vendor.img");
    }
  }

  /** The final images are flashed by exactly the three image commands. */
  lemma FinalImagesCommands(f: Flash.Flash, ok: string -> bool)
    ensures FlashImages(ImageFlash(f), FinalImages, ok) == IssueAll(ImageCommands, ok)
  {
    forall k | 0 <= k < |FinalImages|
      ensures ImageFlash(f)(FinalImages[k]) == Success(ImageCommands[k])
    {
      FinalImageFlash(f, k);
    }
    FlashImagesIssues(ImageFlash(f), FinalImages, ImageCommands, ok);
  }

  /**
   * The question after the update: asked only in an interactive run whose
   * device is not in fastboot, defaulting to no; the run goes on exactly
   * when the device is in fastboot, the run is not interactive, or the reply
   * is a yes.
   */
  function ContinuePrompt(interactive: bool, s: Script): (r: Flash.PromptResult)
    ensures r.answer <==> s.secondMode == FASTBOOT || !interactive || IsYesReply(s.continueReply)
    ensures r.shown == if s.secondMode != FASTBOOT && interactive then [ContinueQuestion + "[y/N]: "] else []
  {
    if s.secondMode != FASTBOOT && interactive then Flash.YnPrompt(ContinueQuestion, false, false, s.continueReply)
    else Flash.PromptResult(true, [])
  }

  /**
   * The closing question: asked only in an interactive run, defaulting to
   * yes; the reboot happens exactly when the run is interactive and the
   * reply is a yes.
   */
  function RebootPrompt(interactive: bool, s: Script): (r: Flash.PromptResult)
    ensures r.answer <==> interactive && IsYesReply(s.rebootReply)
    ensures r.shown == if interactive then [RebootQuestion + "[Y/n]: "] else []
  {
    if interactive then Flash.YnPrompt(RebootQuestion, true, false, s.rebootReply)
    else Flash.PromptResult(false, [])
  }

  /**
   * Everything after the update: the mode check and its question, the final
   * images, and the closing question with the reboot it may ask for.
   */
  function Finish(images: Stage, interactive: bool, s: Script): Session {
    var cont := ContinuePrompt(interactive, s);
    if !cont.answer then Session([], cont.shown, Exited(1))
    else if images.error.Some? then Session(images.issued, cont.shown, Raised(images.error.value))
    else
      var reboot := RebootPrompt(interactive, s);
      var last := IssueAll(if reboot.answer then [RebootCommand] else [], s.succeeds);
      Session(images.issued + last.issued, cont.shown + reboot.shown,
              if last.error.Some? then Raised(last.error.value) else Completed)
  }

  /** The commands before the mode check: reboot to the bootloader, wipe, update. */
  function Start(zip: Path, reboot: seq<string>, format: bool): seq<string> {
    reboot + (if format then [WipeCommand] else []) + [UpdateCommand(zip)]
  }

  /**
   * The device part of `flashFull`, given how the preparation of the
   * directories ended (the exception it raised, if any) and how flashing the
   * final images goes once it is reached.
   */
  function Sequence(zip: Path, prepared: Option<Error>, images: Stage, interactive: bool, format: bool, s: Script): Session {
    if prepared.Some? then Session([], [], Raised(prepared.value))
    else
      match RebootToBootloader(s.firstMode)
      case None => Session([], [], Exited(1))
      case Some(reboot) =>
        var start := IssueAll(Start(zip, reboot, format), s.succeeds);
        if start.error.Some? then Session(start.issued, [], Raised(start.error.value))
        else
          var rest := Finish(images, interactive, s);
          Session(start.issued + rest.commands, rest.prompts, rest.outcome)
  }

  /** The exception a preparation raised, if any. */
  function PrepError(r: Result<FileSystem, Error>): Option<Error> {
    if r.Failure? then Some(r.error) else None
  }

  /** `flashFull`: prepare the directories, then the device sequence with the final images flashed through `flash`. */
  function FlashFull(f: Flash.Flash, fs: FileSystem, interactive: bool, format: bool, s: Script): (r: Session)
    ensures Flash.PrepareSession(f, fs).Failure? ==> r == Session([], [], Raised(Flash.PrepareSession(f, fs).error))
    ensures Flash.PrepareSession(f, fs).Success? && s.firstMode == UNKNOWN ==> r == Session([], [], Exited(1))
  {
    Sequence(f.romZip, PrepError(Flash.PrepareSession(f, fs)), FlashImages(ImageFlash(f), FinalImages, s.succeeds),
             interactive, format, s)
  }

  /** The sequence with the final images issued as their three commands. */
  function Run(zip: Path, prepared: Option<Error>, interactive: bool, format: bool, s: Script): Session {
    Sequence(zip, prepared, IssueAll(ImageCommands, s.succeeds), interactive, format, s)
  }

  /** `flashFull` is the sequence run after the preparation, flashing the three image commands. */
  lemma FlashFullRuns(f: Flash.Flash, fs: FileSystem, interactive: bool, format: bool, s: Script)
    ensures FlashFull(f, fs, interactive, format, s)
            == Run(f.romZip, PrepError(Flash.PrepareSession(f, fs)), interactive, format, s)
  {
    FinalImagesCommands(f, s.succeeds);
  }

  /** A preparation that raises ends the run before any device command. */
  lemma PreparationFailureRaises(f: Flash.Flash, fs: FileSystem, interactive: bool, format: bool, s: Script)
    requires Flash.PrepareSession(f, fs).Failure?
    ensures FlashFull(f, fs, interactive, format, s) == Session([], [], Raised(Flash.PrepareSession(f, fs).error))
  {
  }

  // ---------------------------------------------------------------------------
  // The plan: what a run that goes all the way through issues, written out.
  // ---------------------------------------------------------------------------

  /** The commands a run that reaches the end issues, with or without the reboot. */
  function Planned(zip: Path, firstMode: DeviceMode, format: bool, reboot: bool): seq<string> {
    (match firstMode
     case SYSTEM => ["adb reboot bootloader"]
     case FASTBOOT => ["fastboot reboot bootloader"]
     case _ => [])
    + (if format then ["fastboot -w"] else [])
    + ["fastboot update " + Str(zip)]
    + [ImageCommandText("product"), ImageCommandText("system"), ImageCommandText("vendor")]
    + (if reboot then ["fastboot reboot"] else [])
  }

  /** The run goes on after the update: the device is in fastboot, the run is not interactive, or the operator says yes. */
  predicate Continues(interactive: bool, s: Script) {
    s.secondMode == FASTBOOT || !interactive || IsYesReply(s.continueReply)
  }

  /** The operator asks for the final reboot to system. */
  predicate RebootAccepted(interactive: bool, s: Script) {
    interactive && IsYesReply(s.rebootReply)
  }

  /** Every prefix of a concatenation's first part is a prefix of the concatenation. */
  lemma PrefixOfAppend(a: seq<string>, b: seq<string>, c: seq<string>)
    requires a <= b
    ensures a <= b + c
  {
    assert (b + c)[..|a|] == b[..|a|];
  }

  /** All of `a + b` succeed exactly when all of `a` and all of `b` do. */
  lemma AllSucceedAppend(a: seq<string>, b: seq<string>, ok: string -> bool)
    ensures AllSucceed(a + b, ok) <==> AllSucceed(a, ok) && AllSucceed(b, ok)
  {
    if AllSucceed(a, ok) && AllSucceed(b, ok) {
      forall k | 0 <= k < |a + b|
        ensures ok((a + b)[k])
      {
        if k >= |a| {
          assert (a + b)[k] == b[k - |a|];
        } else {
          assert (a + b)[k] == a[k];
        }
      }
    }
    if AllSucceed(a + b, ok) {
      forall k | 0 <= k < |a|
        ensures ok(a[k])
      {
        assert (a + b)[k] == a[k];
      }
      forall k | 0 <= k < |b|
        ensures ok(b[k])
      {
        assert (a + b)[|a| + k] == b[k];
      }
    }
  }

  /**
   * Commands that all succeeded, followed by a run that stopped at most at
   * its last command, stopped at most at the last command overall.
   */
  lemma SucceedThen(a: seq<string>, c: seq<string>, ok: string -> bool)
    requires AllSucceed(a, ok)
    requires forall k :: 0 <= k < |c| - 1 ==> ok(c[k])
    ensures forall k :: 0 <= k < |a + c| - 1 ==> ok((a + c)[k])
    ensures |c| > 0 ==> (a + c)[|a + c| - 1] == c[|c| - 1]
  {
    forall k | 0 <= k < |a + c| - 1
      ensures ok((a + c)[k])
    {
      if k >= |a| {
        assert (a + c)[k] == c[k - |a|];
      } else {
        assert (a + c)[k] == a[k];
      }
    }
  }

  /** The plan splits into the start, the images and the optional reboot. */
  lemma PlanParts(zip: Path, mode: DeviceMode, format: bool, reboot: bool)
    requires mode != UNKNOWN
    ensures Planned(zip, mode, format, reboot)
            == Start(zip, RebootToBootloader(mode).value, format) + (ImageCommands + (if reboot then [RebootCommand] else []))
  {
  }

  /** The commands after the update that a run going all the way through issues. */
  function Tail(interactive: bool, s: Script): seq<string> {
    ImageCommands + (if RebootAccepted(interactive, s) then [RebootCommand] else [])
  }

  /** The part after the update, once the run goes on: the images, then the optional reboot. */
  lemma ContinuedFinish(interactive: bool, s: Script)
    requires Continues(interactive, s)
    ensures var r := Finish(IssueAll(ImageCommands, s.succeeds), interactive, s);
            && r.commands <= Tail(interactive, s)
            && (r.outcome == Completed <==> AllSucceed(Tail(interactive, s), s.succeeds))
            && (r.outcome == Completed ==> r.commands == Tail(interactive, s))
            && !r.outcome.Exited?
  {
    var tail := if RebootAccepted(interactive, s) then [RebootCommand] else [];
    AllSucceedAppend(ImageCommands, tail, s.succeeds);
    var images := IssueAll(ImageCommands, s.succeeds);
    PrefixOfAppend(images.issued, ImageCommands, tail);
    if images.error.None? {
      var last := IssueAll(tail, s.succeeds);
      PrefixAfterCommon(ImageCommands, last.issued, tail);
    }
  }

  /** What the part after the update does, in terms of the plan's tail. */
  lemma FinishFollowsPlan(interactive: bool, s: Script)
    ensures var r := Finish(IssueAll(ImageCommands, s.succeeds), interactive, s);
            && r.commands <= Tail(interactive, s)
            && (r.outcome == Completed <==> Continues(interactive, s) && AllSucceed(Tail(interactive, s), s.succeeds))
            && (r.outcome == Completed ==> r.commands == Tail(interactive, s))
            && (r.outcome.Exited? <==> !Continues(interactive, s))
            && (r.outcome.Exited? ==> r.outcome.code == 1 && r.commands == [])
  {
    if Continues(interactive, s) {
      ContinuedFinish(interactive, s);
    }
  }

  /**
   * Every command the part after the update issued succeeded, except the
   * last one when the part raised its failure.
   */
  lemma FinishIssuedSucceed(interactive: bool, s: Script)
    ensures var r := Finish(IssueAll(ImageCommands, s.succeeds), interactive, s);
            && (forall k :: 0 <= k < |r.commands| - 1 ==> s.succeeds(r.commands[k]))
            && (r.outcome.Raised? ==>
                  |r.commands| > 0 && r.outcome.error == CommandFailed(r.commands[|r.commands| - 1])
                  && !s.succeeds(r.commands[|r.commands| - 1]))
            && (!r.outcome.Raised? ==> AllSucceed(r.commands, s.succeeds))
  {
    var images := IssueAll(ImageCommands, s.succeeds);
    if Continues(interactive, s) && images.error.None? {
      ImagesThenReboot(interactive, s);
    }
  }

  /** After all images went through, the part after the update is the images followed by the reboot step. */
  lemma ImagesThenReboot(interactive: bool, s: Script)
    requires Continues(interactive, s) && IssueAll(ImageCommands, s.succeeds).error.None?
    ensures var last := IssueAll(if RebootAccepted(interactive, s) then [RebootCommand] else [], s.succeeds);
            var r := Finish(IssueAll(ImageCommands, s.succeeds), interactive, s);
            && r.commands == ImageCommands + last.issued
            && (forall k :: 0 <= k < |r.commands| - 1 ==> s.succeeds(r.commands[k]))
            && (r.outcome.Raised? ==>
                  |r.commands| > 0 && r.outcome.error == CommandFailed(r.commands[|r.commands| - 1])
                  && !s.succeeds(r.commands[|r.commands| - 1]))
            && (!r.outcome.Raised? ==> AllSucceed(r.commands, s.succeeds))
  {
    var last := IssueAll(if RebootAccepted(interactive, s) then [RebootCommand] else [], s.succeeds);
    FinishAfterImages(interactive, s);
    AllSucceedAppend(ImageCommands, last.issued, s.succeeds);
    SucceedThen(ImageCommands, last.issued, s.succeeds);
  }

  /** After all images went through, the part after the update ends with the reboot step's outcome. */
  lemma FinishAfterImages(interactive: bool, s: Script)
    requires Continues(interactive, s) && IssueAll(ImageCommands, s.succeeds).error.None?
    ensures var last := IssueAll(if RebootAccepted(interactive, s) then [RebootCommand] else [], s.succeeds);
            var r := Finish(IssueAll(ImageCommands, s.succeeds), interactive, s);
            && r.commands == ImageCommands + last.issued
            && r.outcome == if last.error.Some? then Raised(last.error.value) else Completed
  {
  }

  /**
   * The run never issues anything outside the plan, in the plan's order; it
   * completes exactly when the directories were prepared, the first mode is
   * known, the run continues after the update and every planned command
   * succeeds, and then it has issued the whole plan.
   */
  lemma RunFollowsPlan(zip: Path, prepared: Option<Error>, interactive: bool, format: bool, s: Script)
    ensures var r := Run(zip, prepared, interactive, format, s);
            var plan := Planned(zip, s.firstMode, format, RebootAccepted(interactive, s));
            && r.commands <= plan
            && (r.outcome == Completed
                <==> prepared.None? && s.firstMode != UNKNOWN && Continues(interactive, s) && AllSucceed(plan, s.succeeds))
            && (r.outcome == Completed ==> r.commands == plan)
  {
    if prepared.None? && s.firstMode != UNKNOWN {
      var start := Start(zip, RebootToBootloader(s.firstMode).value, format);
      PlanParts(zip, s.firstMode, format, RebootAccepted(interactive, s));
      AllSucceedAppend(start, Tail(interactive, s), s.succeeds);
      if AllSucceed(start, s.succeeds) {
        StartedRunFollowsPlan(zip, interactive, format, s);
      } else {
        StoppedStart(zip, interactive, format, s);
      }
    }
  }

  /** Once the start went through, the run is the start followed by the plan's tail, or a prefix of it. */
  lemma StartedRunFollowsPlan(zip: Path, interactive: bool, format: bool, s: Script)
    requires s.firstMode != UNKNOWN
    requires AllSucceed(Start(zip, RebootToBootloader(s.firstMode).value, format), s.succeeds)
    ensures var r := Run(zip, None, interactive, format, s);
            var start := Start(zip, RebootToBootloader(s.firstMode).value, format);
            && r.commands <= start + Tail(interactive, s)
            && (r.outcome == Completed
                <==> Continues(interactive, s) && AllSucceed(Tail(interactive, s), s.succeeds))
            && (r.outcome == Completed ==> r.commands == start + Tail(interactive, s))
  {
    FinishFollowsPlan(interactive, s);
    RunAfterStart(zip, interactive, format, s);
    var start := Start(zip, RebootToBootloader(s.firstMode).value, format);
    var rest := Finish(IssueAll(ImageCommands, s.succeeds), interactive, s);
    PrefixAfterCommon(start, rest.commands, Tail(interactive, s));
  }

  /** Once the start went through, the run is the start followed by the part after the update. */
  lemma RunAfterStart(zip: Path, interactive: bool, format: bool, s: Script)
    requires s.firstMode != UNKNOWN
    requires AllSucceed(Start(zip, RebootToBootloader(s.firstMode).value, format), s.succeeds)
    ensures var rest := Finish(IssueAll(ImageCommands, s.succeeds), interactive, s);
            Run(zip, None, interactive, format, s)
            == Session(Start(zip, RebootToBootloader(s.firstMode).value, format) + rest.commands, rest.prompts, rest.outcome)
  {
  }

  /** What a sequence lacks, its prefixes lack. */
  lemma PrefixLacks(a: seq<string>, b: seq<string>, x: string)
    requires a <= b && x !in b
    ensures x !in a
  {
    assert a == b[..|a|];
  }

  /** A common first part keeps a prefix a prefix. */
  lemma PrefixAfterCommon(a: seq<string>, b: seq<string>, c: seq<string>)
    requires b <= c
    ensures a + b <= a + c
  {
    assert (a + c)[..|a + b|] == a + c[..|b|];
  }

  /** A start that fails raises its failure, having issued a prefix of the start only. */
  lemma StoppedStart(zip: Path, interactive: bool, format: bool, s: Script)
    requires s.firstMode != UNKNOWN
    requires !AllSucceed(Start(zip, RebootToBootloader(s.firstMode).value, format), s.succeeds)
    ensures var r := Run(zip, None, interactive, format, s);
            var st := IssueAll(Start(zip, RebootToBootloader(s.firstMode).value, format), s.succeeds);
            && r == Session(st.issued, [], Raised(st.error.value))
            && r.commands <= Start(zip, RebootToBootloader(s.firstMode).value, format) + Tail(interactive, s)
  {
    var start := Start(zip, RebootToBootloader(s.firstMode).value, format);
    var st := IssueAll(start, s.succeeds);
    PrefixOfAppend(st.issued, start, Tail(interactive, s));
  }

  /** `flashFull` follows the plan: the same statement for the run through `flash` and the preparation. */
  lemma FlashFullFollowsPlan(f: Flash.Flash, fs: FileSystem, interactive: bool, format: bool, s: Script)
    ensures var r := FlashFull(f, fs, interactive, format, s);
            var plan := Planned(f.romZip, s.firstMode, format, RebootAccepted(interactive, s));
            && r.commands <= plan
            && (r.outcome == Completed
                <==> Flash.PrepareSession(f, fs).Success? && s.firstMode != UNKNOWN
                     && Continues(interactive, s) && AllSucceed(plan, s.succeeds))
            && (r.outcome == Completed ==> r.commands == plan)
  {
    FlashFullRuns(f, fs, interactive, format, s);
    RunFollowsPlan(f.romZip, PrepError(Flash.PrepareSession(f, fs)), interactive, format, s);
  }

  /**
   * The run exits, always with status 1, exactly when the first mode is
   * unknown, or when the start went through and the run does not continue
   * after the update; an unknown first mode issues no device command at all.
   */
  lemma ExitConditions(zip: Path, prepared: Option<Error>, interactive: bool, format: bool, s: Script)
    ensures var r := Run(zip, prepared, interactive, format, s);
            && (r.outcome.Exited?
                <==> prepared.None?
                     && (s.firstMode == UNKNOWN
                         || (AllSucceed(Start(zip, RebootToBootloader(s.firstMode).value, format), s.succeeds)
                             && !Continues(interactive, s))))
            && (r.outcome.Exited? ==> r.outcome.code == 1)
            && (s.firstMode == UNKNOWN ==> r.commands == [] && r.prompts == [])
  {
    if prepared.None? && s.firstMode != UNKNOWN {
      if AllSucceed(Start(zip, RebootToBootloader(s.firstMode).value, format), s.succeeds) {
        FinishFollowsPlan(interactive, s);
        RunAfterStart(zip, interactive, format, s);
      } else {
        StoppedStart(zip, interactive, format, s);
      }
    }
  }

  /**
   * Every command a run issued succeeded except the last one of a run that
   * raised a command failure: that one failed and nothing ran after it.
   */
  lemma FailureStops(zip: Path, prepared: Option<Error>, interactive: bool, format: bool, s: Script)
    ensures var r := Run(zip, prepared, interactive, format, s);
            && (forall k :: 0 <= k < |r.commands| - 1 ==> s.succeeds(r.commands[k]))
            && (prepared.None? && r.outcome.Raised? ==>
                  && |r.commands| > 0
                  && r.outcome.error == CommandFailed(r.commands[|r.commands| - 1])
                  && !s.succeeds(r.commands[|r.commands| - 1]))
            && (!r.outcome.Raised? ==> AllSucceed(r.commands, s.succeeds))
  {
    if prepared.None? && s.firstMode != UNKNOWN {
      if AllSucceed(Start(zip, RebootToBootloader(s.firstMode).value, format), s.succeeds) {
        StartedFailureStops(zip, interactive, format, s);
      } else {
        StoppedStart(zip, interactive, format, s);
      }
    }
  }

  /** `FailureStops` for a run whose start went through. */
  lemma StartedFailureStops(zip: Path, interactive: bool, format: bool, s: Script)
    requires s.firstMode != UNKNOWN
    requires AllSucceed(Start(zip, RebootToBootloader(s.firstMode).value, format), s.succeeds)
    ensures var r := Run(zip, None, interactive, format, s);
            && (forall k :: 0 <= k < |r.commands| - 1 ==> s.succeeds(r.commands[k]))
            && (r.outcome.Raised? ==>
                  && |r.commands| > 0
                  && r.outcome.error == CommandFailed(r.commands[|r.commands| - 1])
                  && !s.succeeds(r.commands[|r.commands| - 1]))
            && (!r.outcome.Raised? ==> AllSucceed(r.commands, s.succeeds))
  {
    var start := Start(zip, RebootToBootloader(s.firstMode).value, format);
    RunAfterStart(zip, interactive, format, s);
    FinishIssuedSucceed(interactive, s);
    var rest := Finish(IssueAll(ImageCommands, s.succeeds), interactive, s);
    AllSucceedAppend(start, rest.commands, s.succeeds);
    SucceedThen(start, rest.commands, s.succeeds);
  }

  // ---------------------------------------------------------------------------
  // Facts about the plan itself, and what they say about completed runs.
  // ---------------------------------------------------------------------------

  /** The commands a run can issue are pairwise distinct where it matters. */
  lemma CommandsDiffer(zip: Path)
    ensures UpdateCommand(zip) != "adb reboot bootloader" && UpdateCommand(zip) != "fastboot reboot bootloader"
    ensures UpdateCommand(zip) != WipeCommand && UpdateCommand(zip) != RebootCommand
    ensures UpdateCommand(zip) !in ImageCommands
    ensures WipeCommand !in ImageCommands && RebootCommand !in ImageCommands
    ensures ImageCommands[0] != ImageCommands[2] && ImageCommands[1] != ImageCommands[2]
  {
    var u := UpdateCommand(zip);
    assert u == "fastboot update " + Str(zip);
    assert u[0] == 'f' && u[9] == 'u';
    assert ImageCommandText("product")[9] == 'f';
    assert ImageCommandText("system")[9] == 'f' && ImageCommandText("system")[15] == 's';
    assert ImageCommandText("vendor")[9] == 'f' && ImageCommandText("vendor")[15] == 'v';
  }

  /** A plan holds between four and seven commands. */
  lemma PlanLength(zip: Path, mode: DeviceMode, format: bool, reboot: bool)
    ensures 4 <= |Planned(zip, mode, format, reboot)| <= 7
  {
  }

  /** The wipe is planned exactly when formatting is asked for, right after the bootloader step and before the update. */
  lemma PlanWipe(zip: Path, mode: DeviceMode, format: bool, reboot: bool)
    requires mode != UNKNOWN
    ensures WipeCommand in Planned(zip, mode, format, reboot) <==> format
    ensures format ==>
              var plan := Planned(zip, mode, format, reboot);
              var n := |RebootToBootloader(mode).value|;
              plan[n] == WipeCommand && plan[n + 1] == UpdateCommand(zip)
  {
    CommandsDiffer(zip);
    PlanParts(zip, mode, format, reboot);
  }

  /** The reboot to system is planned exactly when it was accepted. */
  lemma PlanReboot(zip: Path, mode: DeviceMode, format: bool, reboot: bool)
    requires mode != UNKNOWN
    ensures RebootCommand in Planned(zip, mode, format, reboot) <==> reboot
  {
    CommandsDiffer(zip);
    PlanParts(zip, mode, format, reboot);
    assert RebootCommand != WipeCommand && RebootCommand !in RebootToBootloader(mode).value;
  }

  /** The update is planned exactly once. */
  lemma PlanUpdateOnce(zip: Path, mode: DeviceMode, format: bool, reboot: bool)
    requires mode != UNKNOWN
    ensures multiset(Planned(zip, mode, format, reboot))[UpdateCommand(zip)] == 1
  {
    CommandsDiffer(zip);
    PlanParts(zip, mode, format, reboot);
    var u := UpdateCommand(zip);
    var boot := RebootToBootloader(mode).value;
    var tail := ImageCommands + (if reboot then [RebootCommand] else []);
    assert u !in boot && u !in tail;
    assert multiset(boot)[u] == 0 && multiset(tail)[u] == 0;
    var wipe := if format then [WipeCommand] else [];
    assert multiset(wipe)[u] == 0;
    assert Start(zip, boot, format) == boot + wipe + [u];
    assert multiset(Start(zip, boot, format))[u] == 1;
  }

  /** In a plan, the vendor image comes only right after the system image. */
  lemma PlanVendorAfterSystem(zip: Path, mode: DeviceMode, format: bool, reboot: bool, j: int)
    requires mode != UNKNOWN
    requires 0 <= j < |Planned(zip, mode, format, reboot)|
    requires Planned(zip, mode, format, reboot)[j] == ImageCommands[2]
    ensures j > 0 && Planned(zip, mode, format, reboot)[j - 1] == ImageCommands[1]
  {
    CommandsDiffer(zip);
    PlanParts(zip, mode, format, reboot);
    var start := Start(zip, RebootToBootloader(mode).value, format);
    var plan := Planned(zip, mode, format, reboot);
    assert ImageCommands[2] !in start;
  }

  /** A failed system image is the last command: the vendor image is not flashed after it. */
  lemma SystemFailureSkipsVendor(zip: Path, prepared: Option<Error>, interactive: bool, format: bool, s: Script)
    requires !s.succeeds(ImageCommands[1])
    ensures ImageCommands[2] !in Run(zip, prepared, interactive, format, s).commands
  {
    var r := Run(zip, prepared, interactive, format, s);
    RunFollowsPlan(zip, prepared, interactive, format, s);
    FailureStops(zip, prepared, interactive, format, s);
    if ImageCommands[2] in r.commands {
      var j :| 0 <= j < |r.commands| && r.commands[j] == ImageCommands[2];
      PlanVendorAfterSystem(zip, s.firstMode, format, RebootAccepted(interactive, s), j);
    }
  }

  /** A completed run issues between four and seven commands. */
  lemma CompletedLength(zip: Path, prepared: Option<Error>, interactive: bool, format: bool, s: Script)
    requires Run(zip, prepared, interactive, format, s).outcome == Completed
    ensures 4 <= |Run(zip, prepared, interactive, format, s).commands| <= 7
  {
    RunFollowsPlan(zip, prepared, interactive, format, s);
    PlanLength(zip, s.firstMode, format, RebootAccepted(interactive, s));
  }

  /**
   * In a completed run the wipe is issued exactly when formatting was asked
   * for, right after the bootloader step and right before the update.
   */
  lemma WipeIffFormat(zip: Path, prepared: Option<Error>, interactive: bool, format: bool, s: Script)
    requires Run(zip, prepared, interactive, format, s).outcome == Completed
    ensures WipeCommand in Run(zip, prepared, interactive, format, s).commands <==> format
    ensures format ==>
              var c := Run(zip, prepared, interactive, format, s).commands;
              var n := |RebootToBootloader(s.firstMode).value|;
              c[n] == WipeCommand && c[n + 1] == UpdateCommand(zip)
  {
    RunFollowsPlan(zip, prepared, interactive, format, s);
    PlanWipe(zip, s.firstMode, format, RebootAccepted(interactive, s));
  }

  /** A completed run issues the update exactly once, naming the archive path as given. */
  lemma UpdateExactlyOnce(zip: Path, prepared: Option<Error>, interactive: bool, format: bool, s: Script)
    requires Run(zip, prepared, interactive, format, s).outcome == Completed
    ensures multiset(Run(zip, prepared, interactive, format, s).commands)[UpdateCommand(zip)] == 1
  {
    RunFollowsPlan(zip, prepared, interactive, format, s);
    PlanUpdateOnce(zip, s.firstMode, format, RebootAccepted(interactive, s));
  }

  /**
   * In a completed run the reboot to system is issued exactly when the run
   * is interactive and the operator accepts.
   */
  lemma RebootIffAccepted(zip: Path, prepared: Option<Error>, interactive: bool, format: bool, s: Script)
    requires Run(zip, prepared, interactive, format, s).outcome == Completed
    ensures RebootCommand in Run(zip, prepared, interactive, format, s).commands <==> RebootAccepted(interactive, s)
  {
    RunFollowsPlan(zip, prepared, interactive, format, s);
    PlanReboot(zip, s.firstMode, format, RebootAccepted(interactive, s));
  }

  /**
   * A non-interactive run shows no question and never reboots to system,
   * and it exits only for an unknown first mode, whatever the device
   * reports after the update.
   */
  lemma NonInteractiveNeverPrompts(zip: Path, prepared: Option<Error>, format: bool, s: Script)
    ensures Run(zip, prepared, false, format, s).prompts == []
    ensures RebootCommand !in Run(zip, prepared, false, format, s).commands
    ensures Run(zip, prepared, false, format, s).outcome.Exited? ==> s.firstMode == UNKNOWN
  {
    var r := Run(zip, prepared, false, format, s);
    NonInteractiveSilent(zip, prepared, format, s);
    RunFollowsPlan(zip, prepared, false, format, s);
    ExitConditions(zip, prepared, false, format, s);
    if s.firstMode != UNKNOWN {
      PlanReboot(zip, s.firstMode, format, false);
      var plan := Planned(zip, s.firstMode, format, false);
      PrefixLacks(r.commands, plan, RebootCommand);
    }
  }

  /** A non-interactive run shows no question. */
  lemma NonInteractiveSilent(zip: Path, prepared: Option<Error>, format: bool, s: Script)
    ensures Run(zip, prepared, false, format, s).prompts == []
  {
    if prepared.None? && s.firstMode != UNKNOWN
       && AllSucceed(Start(zip, RebootToBootloader(s.firstMode).value, format), s.succeeds) {
      RunAfterStart(zip, false, format, s);
    }
  }

  /**
   * When the device is not in fastboot after the update, an interactive run
   * with an empty continue reply exits, after the start and before any image.
   */
  lemma EmptyContinueReplyExits(zip: Path, format: bool, s: Script)
    requires s.firstMode != UNKNOWN
    requires AllSucceed(Start(zip, RebootToBootloader(s.firstMode).value, format), s.succeeds)
    requires s.secondMode != FASTBOOT && s.continueReply == ""
    ensures Run(zip, None, true, format, s)
            == Session(Start(zip, RebootToBootloader(s.firstMode).value, format),
                       [ContinueQuestion + "[y/N]: "], Exited(1))
  {
    RunAfterStart(zip, true, format, s);
  }

  /** The continue question as shown, with its default marker. */
  const ContinueLine: string := ContinueQuestion + "[y/N]: "

  /** The reboot question as shown, with its default marker. */
  const RebootLine: string := RebootQuestion + "[Y/n]: "

  /**
   * The questions a run that reaches the end shows, in order: the continue
   * question when the device is not in fastboot after the update, then the
   * reboot question; a non-interactive run shows none.
   */
  function PlannedPrompts(interactive: bool, secondMode: DeviceMode): seq<string> {
    if !interactive then []
    else (if secondMode == FASTBOOT then [] else [ContinueLine]) + [RebootLine]
  }

  /** The two question lines differ. */
  lemma PromptLinesDiffer()
    ensures ContinueLine != RebootLine
  {
    assert |RebootLine| == |RebootQuestion| + 7 < |ContinueQuestion| + 7 == |ContinueLine|;
  }

  /** The questions the part after the update shows. */
  lemma FinishPrompts(interactive: bool, s: Script)
    ensures Finish(IssueAll(ImageCommands, s.succeeds), interactive, s).prompts
            == (if interactive && s.secondMode != FASTBOOT then [ContinueLine] else [])
               + (if interactive && Continues(interactive, s) && AllSucceed(ImageCommands, s.succeeds)
                  then [RebootLine] else [])
  {
  }

  /**
   * Questions shown as "continue if `asked`, then reboot if `rebooted`"
   * follow the plan, and each question is there exactly when its flag is set.
   */
  lemma PromptsShape(interactive: bool, secondMode: DeviceMode, asked: bool, rebooted: bool, prompts: seq<string>)
    requires prompts == (if asked then [ContinueLine] else []) + (if rebooted then [RebootLine] else [])
    requires asked ==> interactive && secondMode != FASTBOOT
    requires rebooted ==> interactive
    requires rebooted && secondMode != FASTBOOT ==> asked
    ensures prompts <= PlannedPrompts(interactive, secondMode)
    ensures ContinueLine in prompts <==> asked
    ensures RebootLine in prompts <==> rebooted
  {
    PromptLinesDiffer();
    var plan := PlannedPrompts(interactive, secondMode);
    if interactive && secondMode != FASTBOOT {
      assert plan == [ContinueLine, RebootLine];
    } else if interactive {
      assert plan == [RebootLine];
    }
  }

  /**
   * The questions follow the plan's order, the continue question before any
   * image and the reboot question last; the continue question is shown
   * exactly when an interactive run got through the update with the device
   * not in fastboot, and the reboot question exactly when an interactive run
   * went on and every image command succeeded.
   */
  lemma PromptsFollowPlan(zip: Path, prepared: Option<Error>, interactive: bool, format: bool, s: Script)
    ensures var r := Run(zip, prepared, interactive, format, s);
            var updated := prepared.None? && s.firstMode != UNKNOWN
                           && AllSucceed(Start(zip, RebootToBootloader(s.firstMode).value, format), s.succeeds);
            && r.prompts <= PlannedPrompts(interactive, s.secondMode)
            && (ContinueLine in r.prompts <==> updated && interactive && s.secondMode != FASTBOOT)
            && (RebootLine in r.prompts
                <==> updated && interactive && Continues(interactive, s) && AllSucceed(ImageCommands, s.succeeds))
  {
    var r := Run(zip, prepared, interactive, format, s);
    if prepared.None? && s.firstMode != UNKNOWN
       && AllSucceed(Start(zip, RebootToBootloader(s.firstMode).value, format), s.succeeds) {
      RunAfterStart(zip, interactive, format, s);
      FinishPrompts(interactive, s);
      PromptsShape(interactive, s.secondMode, interactive && s.secondMode != FASTBOOT,
                   interactive && Continues(interactive, s) && AllSucceed(ImageCommands, s.succeeds), r.prompts);
    } else {
      if prepared.None? && s.firstMode != UNKNOWN {
        StoppedStart(zip, interactive, format, s);
      }
      PromptsShape(interactive, s.secondMode, false, false, r.prompts);
    }
  }

  /** When the device is in fastboot after the update, no question about continuing is asked. */
  lemma FastbootAfterUpdateAsksOnlyReboot(zip: Path, format: bool, s: Script)
    requires s.firstMode != UNKNOWN
    requires AllSucceed(Start(zip, RebootToBootloader(s.firstMode).value, format), s.succeeds)
    requires AllSucceed(ImageCommands, s.succeeds)
    requires s.secondMode == FASTBOOT
    ensures Run(zip, None, true, format, s).prompts == [RebootQuestion + "[Y/n]: "]
  {
    RunAfterStart(zip, true, format, s);
  }

  /** An archive at /roms/device.zip is unpacked into /roms/device itself. */
  lemma ExampleLayout()
    ensures New(Path(true, ["roms", "device.zip"])).Success?
    ensures New(Path(true, ["roms", "device.zip"])).value.workingDirectory == Path(true, ["roms", "device"])
    ensures New(Path(true, ["roms", "device.zip"])).value.extractedDirectory == Path(true, ["roms", "device"])
  {
    FileHandler.ExampleWithoutSuffix();
  }
}

=== FILE: text.dfy ===
/**
 * The few Python string operations the tool logic relies on: the `in`
 * substring test, `str.strip()`, `str.lower()`, and splitting/joining on a
 * separator character (used by path parsing and printing).
 */
module Text {

  /** `sub` occurs at the very start of `s`. */
  predicate IsPrefix(sub: string, s: string) {
    |sub| <= |s| && s[..|sub|] == sub
  }

  /** Python's `sub in s` for two strings; the empty string occurs everywhere. */
  predicate Contains(s: string, sub: string)
    decreases |s|
  {
    IsPrefix(sub, s) || (|s| > 0 && Contains(s[1..], sub))
  }

  /** `Contains` holds exactly when `sub` starts at some position of `s`. */
  lemma {:induction false} ContainsAt(s: string, sub: string)
    ensures Contains(s, sub) <==> exists i :: 0 <= i <= |s| && IsPrefix(sub, s[i..])
    decreases |s|
  {
    if Contains(s, sub) {
      if IsPrefix(sub, s) {
        assert s[0..] == s;
      } else {
        ContainsAt(s[1..], sub);
        var i :| 0 <= i <= |s[1..]| && IsPrefix(sub, s[1..][i..]);
        assert s[1..][i..] == s[i + 1..];
      }
    }
    if exists i :: 0 <= i <= |s| && IsPrefix(sub, s[i..]) {
      var i :| 0 <= i <= |s| && IsPrefix(sub, s[i..]);
      if i == 0 {
        assert s[0..] == s;
      } else {
        assert s[1..][i - 1..] == s[i..];
        ContainsAt(s[1..], sub);
      }
    }
  }

  /** A string equal to `sub` contains it: whole-stream equality is a special case of `in`. */
  lemma EqualContains(s: string, sub: string)
    requires s == sub
    ensures Contains(s, sub)
  {
    assert s[..|sub|] == sub;
  }

  /** The characters Python's `str.isspace()` accepts. */
  predicate IsSpace(c: char) {
    c == ' ' || ('\t' <= c <= '\r') || ('\U{1C}' <= c <= '\U{1F}')
    || c == '\U{85}' || c == '\U{A0}' || c == '\U{1680}'
    || ('\U{2000}' <= c <= '\U{200A}') || c == '\U{2028}' || c == '\U{2029}'
    || c == '\U{202F}' || c == '\U{205F}' || c == '\U{3000}'
  }

  /** Every character of `s` is white space. */
  predicate AllSpace(s: string) {
    forall k :: 0 <= k < |s| ==> IsSpace(s[k])
  }

  /** `s` without its leading white space (`str.lstrip()`). */
  function TrimStart(s: string): (r: string)
    ensures |r| <= |s| && r == s[|s| - |r|..]
    ensures AllSpace(s[..|s| - |r|])
    ensures |r| > 0 ==> !IsSpace(r[0])
    decreases |s|
  {
    if |s| > 0 && IsSpace(s[0]) then TrimStart(s[1..]) else s
  }

  /** `s` without its trailing white space (`str.rstrip()`). */
  function TrimEnd(s: string): (r: string)
    ensures |r| <= |s| && r == s[..|r|]
    ensures AllSpace(s[|r|..])
    ensures |r| > 0 ==> !IsSpace(r[|r| - 1])
    decreases |s|
  {
    if |s| > 0 && IsSpace(s[|s| - 1]) then TrimEnd(s[..|s| - 1]) else s
  }

  /** Python's `str.strip()` with no argument. */
  function Strip(s: string): string {
    TrimEnd(TrimStart(s))
  }

  /** Lower-casing of one character (ASCII letters only). */
  function LowerChar(c: char): char {
    if 'A' <= c <= 'Z' then (c as int + 32) as char else c
  }

  /** Python's `str.lower()`, restricted to ASCII letters. */
  function Lower(s: string): (r: string)
    ensures |r| == |s|
    ensures forall k :: 0 <= k < |s| ==> r[k] == LowerChar(s[k])
  {
    seq(|s|, k requires 0 <= k < |s| => LowerChar(s[k]))
  }

  /** The leading white space ends at the first non-space character. */
  lemma {:induction false} TrimStartAt(s: string, i: nat)
    requires i < |s| && !IsSpace(s[i]) && AllSpace(s[..i])
    ensures TrimStart(s) == s[i..]
    decreases i
  {
    if i > 0 {
      assert s[..i][0] == s[0];
      assert s[1..][..i - 1] == s[1..i];
      assert forall k :: 0 <= k < i - 1 ==> s[1..i][k] == s[..i][k + 1];
      TrimStartAt(s[1..], i - 1);
      assert s[1..][i - 1..] == s[i..];
    }
  }

  /** The trailing white space starts after the last non-space character. */
  lemma {:induction false} TrimEndAt(s: string, n: nat)
    requires 0 < n <= |s| && !IsSpace(s[n - 1]) && AllSpace(s[n..])
    ensures TrimEnd(s) == s[..n]
    decreases |s| - n
  {
    if n < |s| {
      var s' := s[..|s| - 1];
      assert s[n..][|s| - 1 - n] == s[|s| - 1];
      assert forall k :: 0 <= k < |s'| - n ==> s'[n..][k] == s[n..][k];
      TrimEndAt(s', n);
      assert s'[..n] == s[..n];
    }
  }

  /** A lone 'y' or 'Y' between runs of white space reads as "y". */
  predicate IsYesReply(s: string) {
    exists i :: 0 <= i < |s| && (s[i] == 'y' || s[i] == 'Y') && AllSpace(s[..i]) && AllSpace(s[i + 1..])
  }

  lemma StrippedYIsYesReply(s: string)
    requires Lower(Strip(s)) == "y"
    ensures IsYesReply(s)
  {
    var t1 := TrimStart(s);
    var t := TrimEnd(t1);
    var lead := |s| - |t1|;
    assert |t| == 1 && LowerChar(t[0]) == 'y';
    assert t[0] == t1[0] == s[lead];
    assert s[lead + 1..] == t1[1..];
    assert s[lead] == 'y' || s[lead] == 'Y';
  }

  lemma YesReplyStripsToY(s: string, i: nat)
    requires i < |s| && (s[i] == 'y' || s[i] == 'Y') && AllSpace(s[..i]) && AllSpace(s[i + 1..])
    ensures Lower(Strip(s)) == "y"
  {
    TrimStartAt(s, i);
    assert s[i..][1..] == s[i + 1..];
    TrimEndAt(s[i..], 1);
    assert Strip(s) == [s[i]];
  }

  /**
   * A reply reads as "y" after stripping and lower-casing exactly when it is
   * a single 'y' or 'Y' surrounded by white space only.
   */
  lemma StripLowerIsY(s: string)
    ensures Lower(Strip(s)) == "y" <==> IsYesReply(s)
  {
    if Lower(Strip(s)) == "y" {
      StrippedYIsYesReply(s);
    }
    if IsYesReply(s) {
      var i :| 0 <= i < |s| && (s[i] == 'y' || s[i] == 'Y') && AllSpace(s[..i]) && AllSpace(s[i + 1..]);
      YesReplyStripsToY(s, i);
    }
  }

  /** Python's `sep.join(parts)` for a one-character separator. */
  function Join(parts: seq<string>, sep: char): string
    decreases |parts|
  {
    if |parts| == 0 then ""
    else if |parts| == 1 then parts[0]
    else parts[0] + [sep] + Join(parts[1..], sep)
  }

  /** Python's `s.split(sep)` for a one-character separator. */
  function Split(s: string, sep: char): (r: seq<string>)
    ensures |r| > 0
    ensures forall k :: 0 <= k < |r| ==> sep !in r[k]
    decreases |s|
  {
    if |s| == 0 then [""]
    else
      var rest := Split(s[1..], sep);
      if s[0] == sep then [""] + rest else [[s[0]] + rest[0]] + rest[1..]
  }

  /** A piece without the separator splits into itself. */
  lemma {:induction false} SplitNoSep(s: string, sep: char)
    requires sep !in s
    ensures Split(s, sep) == [s]
    decreases |s|
  {
    if |s| > 0 {
      SplitNoSep(s[1..], sep);
      assert [s[0]] + s[1..] == s;
    }
  }

  /** Splitting `a + sep + b` peels off `a` when `a` holds no separator. */
  lemma {:induction false} SplitAfterPiece(a: string, sep: char, b: string)
    requires sep !in a
    ensures Split(a + [sep] + b, sep) == [a] + Split(b, sep)
    decreases |a|
  {
    var s := a + [sep] + b;
    if |a| == 0 {
      assert s[1..] == b;
    } else {
      assert s[1..] == a[1..] + [sep] + b;
      SplitAfterPiece(a[1..], sep, b);
      assert [a[0]] + a[1..] == a;
    }
  }

  /** Split undoes Join when no piece contains the separator. */
  lemma {:induction false} SplitJoin(parts: seq<string>, sep: char)
    requires |parts| > 0
    requires forall k :: 0 <= k < |parts| ==> sep !in parts[k]
    ensures Split(Join(parts, sep), sep) == parts
    decreases |parts|
  {
    if |parts| == 1 {
      SplitNoSep(parts[0], sep);
    } else {
      SplitJoin(parts[1..], sep);
      SplitAfterPiece(parts[0], sep, Join(parts[1..], sep));
      assert [parts[0]] + parts[1..] == parts;
    }
  }

  /** A join of non-empty pieces starts with the first piece's first character. */
  lemma JoinHead(parts: seq<string>, sep: char)
    requires |parts| > 0 && |parts[0]| > 0
    ensures |Join(parts, sep)| > 0 && Join(parts, sep)[0] == parts[0][0]
  {
  }

  /** Joining two non-empty lists is joining each and putting one separator between. */
  lemma {:induction false} JoinAppend(a: seq<string>, b: seq<string>, sep: char)
    requires |a| > 0 && |b| > 0
    ensures Join(a + b, sep) == Join(a, sep) + [sep] + Join(b, sep)
    decreases |a|
  {
    if |a| == 1 {
      assert (a + b)[1..] == b;
    } else {
      JoinAppend(a[1..], b, sep);
      assert (a + b)[1..] == a[1..] + b;
    }
  }

  /** Python's `s.rfind(c)`: the position of the last `c`, or -1 when there is none. */
  function LastIndexOf(s: string, c: char): (r: int)
    ensures -1 <= r < |s|
    ensures r >= 0 ==> s[r] == c
    ensures forall k :: r < k < |s| ==> s[k] != c
    decreases |s|
  {
    if |s| == 0 then -1
    else if s[|s| - 1] == c then |s| - 1
    else LastIndexOf(s[..|s| - 1], c)
  }
}

=== FILE: wrappers.dfy ===
/** Failure-carrying wrappers shared by every module of the model. */
module Wrappers {

  /** Python's `Optional[T]`: `None` or a present value. */
  datatype Option<+T> = None | Some(value: T)

  /** A computation that either returns a value or raises an error. */
  datatype Result<+T, +E> = Success(value: T) | Failure(error: E)
}
